=== FILE: README.md ===
# Blog article lifecycle and role guard — a Dafny model

This project models the core of a NestJS blog backend:

- the article lifecycle of `BlogService`:
  - `create`, `update`, `delete`;
  - the detail view `findOneBySlug`;
  - the like and bookmark toggles;
  - the listings `blogList` and `myBlog`;
- `RoleGuard.canActivate`, which admits a request by the roles a route requires.

The persistent state is one immutable value, `Store.Store`. It holds:

- the articles by id;
- the category table;
- the article/category junction rows;
- the like and bookmark pairs;
- the article each comment row belongs to (the comments themselves belong to the comment service);
- the next serial id.

Every operation is a pure function from a store and a request to an outcome and a new store. The outcome is `Ok`, `NotFound`, `BadRequest`, or `Refused` for a delete the database rejects. Exceptions become `Outcomes.Result` values.

Anything the service reads from its surroundings becomes a parameter:

- the acting user (`request.user`);
- the random slug suffix (`randomId()`);
- the random row order of the suggestion query;
- the category service's title lookup, a relation `same(stored, requested)`. The lookup is taken to return the first stored category the relation accepts, and an inserted category is taken to store the requested title unchanged.

Modules:

- `Outcomes`:
  - `Option` and `Result`;
  - JavaScript truthiness of optional strings and numbers.
- `Text`:
  - ASCII case folding;
  - `split(',')` and its inverse join;
  - substring containment.
- `IntSets`: least and greatest elements of finite id sets.
- `Slug`: the two regular-expression replacements that turn a title or an explicit slug into a slug.
  - The first deletes the harakat U+064B–U+0651, hamza U+0621 and the ASCII characters `. + - _ ) ( * & % $ ^ # @ ! ~ ' " ; : ? > <` and backtick.
  - The second turns every run of ECMAScript whitespace into one `-`.
- `Store`: the data model and the look-ups by id and by slug.
- `Categories`:
  - the shape check on the `categories` field;
  - find-or-create of each title;
  - the junction rows.
- `Articles`:
  - create, update (a partial overwrite), delete;
  - the detail view and the three suggestions.
- `Engagement`: the like and bookmark toggles.
- `Like`: PostgreSQL `LIKE`/`ILIKE` with the default escape `\`.
- `Catalog`: the list filters and the `ORDER BY id DESC` listings.
- `RoleGuard`: the guard.

## Behaviour the model records

In each of these cases the model follows the code.

- **Slugs keep case and most punctuation.** The slug of "Hello, World!" is `Hello,-World` (`Slug.TwoWordTitle`), where a lower-casing slugifier would give `hello-world`.
- **Slugs lose their own hyphens.** An explicit slug `a-b` becomes `ab`, so normalising is not idempotent (`Slug.NotIdempotent`, `Slug.NormalizeTwice`).
- **Slug collisions.** A slug collision is resolved once: the suffix is appended and the lookup is not repeated. A second article created from the same title always gets a suffixed slug (`Articles.SecondCreateSuffixed`).
- **`update` order and shape checks.** `update` checks existence first and the shape of `categories` second. An absent `categories` field is a BadRequest.
- **Empty category strings.** An empty string still splits to one empty title, which replaces all junction rows.
- **Falsy fields in `update`.** A falsy field is ignored. The study time cannot be set to 0, and a title cannot be set to the empty string.
- **No ownership check.** `update` and `delete` make no ownership check. `update` never changes the author or the status.
- **`delete` and dependent rows.** The service deletes only the article row. What becomes of the article's junction, like, bookmark and comment rows (the comment table is read at lines 147 and 343-344) is decided by foreign keys declared in entity definitions that are not part of this model, so it is the `policy` parameter of `Articles.Delete`. Under `Restrict` the delete is refused while such rows exist; under `Cascade` they go with the article. A foreign key declared without an `onDelete` option is `ON DELETE NO ACTION`, which for a single `DELETE` statement refuses exactly as `Restrict` does. Either way no junction, like, bookmark or comment row refers to a deleted article (`Articles.DeleteLeavesNoOrphans`).
- **Detail-view flags.** Like and bookmark flags are looked up only for a caller with a positive id.
- **Suggestions.** The suggestions are the first three rows of a random order of all articles, which may include the article being viewed.
- **Search escaping.** The list's search term is used as a `LIKE` pattern without escaping, so `%`, `_` and `\` in it act as wildcards and escape. `Catalog.BlogList` does the same. `Catalog.BlogListIntended` escapes the term (see Findings).
- **Category case.** The list's category clause compares the stored title, without case folding, with the lower-cased filter. `Catalog.BlogList` does the same. `Catalog.BlogListIntended` folds both sides (see Findings). The two lists agree when stored titles are lower case and the search term has no `%`, `_` or `\` (`Catalog.PlainFiltersAgree`).
- **Class-level roles are never read.** The guard hands the reflector `context.getClass` without calling it, so only the handler's role metadata takes effect. The model's `required` input stands for the handler's roles.

## Model

| member | source | states |
|---|---|---|
| RoleGuard.CanActivate | src/modules/auth/guards/role.guard.ts:10-26 | An absent or empty role list allows. A non-empty list with no user attached fails on reading the role. With a user, the guard never fails, and it allows exactly when the user is an administrator or the user's role (`User` when unset) is in the list; otherwise Forbidden |
| RoleGuard.AdminOverride | src/modules/auth/guards/role.guard.ts:23 | An administrator passes every guard |
| RoleGuard.DefaultRole | src/modules/auth/guards/role.guard.ts:22-24 | A user without a role is judged exactly as a `User` |
| RoleGuard.Monotone | src/modules/auth/guards/role.guard.ts:24 | Requiring more roles never revokes access |
| RoleGuard.ForbiddenOtherwise | src/modules/auth/guards/role.guard.ts:25 | A present non-administrator whose role is not required is refused with Forbidden |
| Text.Split | src/modules/blog/services/blog.service.ts:60 | `split(',')` yields at least one piece, and no piece holds the separator |
| Text.JoinSplit | src/modules/blog/services/blog.service.ts:59-60 | Joining the pieces of a split with the separator gives the string back |
| Text.SplitJoin | src/modules/blog/services/blog.service.ts:59-60 | Splitting a join of separator-free titles gives the titles back |
| Text.Lower | src/modules/blog/services/blog.service.ts:120 | Lower-casing keeps the length and folds each character on its own |
| Text.LowerIdempotent | src/modules/blog/services/blog.service.ts:120-122 | Lowering the filter in the service and again in SQL is lowering once |
| Categories.ParseCategories | src/modules/blog/services/blog.service.ts:59-63 | A string becomes its comma-free pieces, which join back to the string. An array is used as is. Any other shape is BadRequest |
| Categories.FindCategory | src/modules/blog/services/blog.service.ts:85 | The title lookup returns the first stored category it accepts, and none exactly when it accepts none |
| Categories.FindFrom | src/modules/blog/services/blog.service.ts:85 | The lookup returns the first accepted category, and none exactly when no category is accepted |
| Categories.Resolve | src/modules/blog/services/blog.service.ts:85-88 | Find-or-create reuses the first accepted category and leaves the table unchanged; otherwise it appends exactly the requested title |
| Categories.LinkOne | src/modules/blog/services/blog.service.ts:84-93 | One iteration appends one junction row for the article and keeps every earlier row and category. When the lookup succeeds, the row points at the category found and the table is unchanged; otherwise exactly the title is appended and the row points at it |
| Categories.LinkAll | src/modules/blog/services/blog.service.ts:84-93 | The loop adds one row per title, in order, each to an acceptable category, reusing any category the lookup already finds. New categories carry only listed titles, at most one per list entry, and none when every title's lookup succeeds. No new category is accepted by the lookup for the title of any category before it, so a repeated title reuses the category its first occurrence created. Nothing but categories and links changes |
| Categories.RepeatedTitleReused | src/modules/blog/services/blog.service.ts:84-88 | A title listed twice, under a lookup that accepts a title for itself, creates at most one category |
| Categories.FindPrefix | src/modules/blog/services/blog.service.ts:85-88 | A lookup that succeeds returns the same category after more categories are appended |
| Categories.DropLinksOf | src/modules/blog/services/blog.service.ts:232-234 | Deleting an article's rows removes every one of them and keeps every row of other articles, as often as it occurred |
| Store.CheckExist | src/modules/blog/services/blog.service.ts:182-186 | The lookup by id is NotFound exactly when the id is unknown, otherwise the stored article |
| Store.SlugHolder | src/modules/blog/services/blog.service.ts:98-102 | The lookup by slug finds nothing exactly when no article holds the slug; otherwise it finds an article holding it |
| Slug.StripClean | src/modules/blog/services/blog.service.ts:66 | The first replacement (`Slug.Strip`) leaves no deleted character |
| Slug.StripEmpty | src/modules/blog/services/blog.service.ts:66 | The first replacement leaves nothing exactly when every character of the source is a deleted one |
| Slug.StripConcat | src/modules/blog/services/blog.service.ts:66 | The first replacement works character by character: stripping a concatenation is concatenating the stripped parts |
| Slug.CollapseNoSpace | src/modules/blog/services/blog.service.ts:67 | The second replacement (`Slug.Collapse`) leaves no whitespace |
| Slug.CollapseHyphens | src/modules/blog/services/blog.service.ts:67 | The second replacement adds one hyphen per whitespace run |
| Slug.CollapseRun | src/modules/blog/services/blog.service.ts:67 | Each whitespace run is replaced in place: after a whitespace-free prefix, a maximal run becomes exactly one `-` and the rest is collapsed in turn |
| Slug.Normalize | src/modules/blog/services/blog.service.ts:64-67 | A slug holds no whitespace, and it is empty exactly when every character of the source is a deleted one |
| Slug.NormalizeShape | src/modules/blog/services/blog.service.ts:64-67 | A slug holds no deleted character except `-`, and never two hyphens in a row |
| Slug.NormalizeKeepsContent | src/modules/blog/services/blog.service.ts:64-67 | Without its hyphens, a slug is the source minus deleted characters and whitespace, in order |
| Slug.NormalizeHyphens | src/modules/blog/services/blog.service.ts:64-67 | A slug has one hyphen per whitespace run of the stripped source |
| Slug.NormalizeTwice | src/modules/blog/services/blog.service.ts:216-220 | Normalising a slug again changes it exactly when the first pass produced a hyphen |
| Slug.TwoWordTitle | src/modules/blog/services/blog.service.ts:64-67 | `w1, w2!` normalises to `w1,-w2` for plain words: case and comma are kept |
| Slug.NotIdempotent | src/modules/blog/services/blog.service.ts:216-220 | `a b` gives `a-b`, and `a-b` given as an explicit slug gives `ab` |
| Slug.HyphenatedSlug | src/modules/blog/services/blog.service.ts:66 | Two plain words joined by `-` normalise to the words glued together |
| Slug.SpacedSlug | src/modules/blog/services/blog.service.ts:67 | Two plain words joined by a space normalise to the words joined by `-` |
| Articles.UniqueSlug | src/modules/blog/services/blog.service.ts:217-224 | The slug is the normalised source, with `-suffix` appended. The suffix is appended exactly when some article holds the normalised slug (on create), or when the slug lookup returns an article other than the one being updated (on update) |
| Articles.Create | src/modules/blog/services/blog.service.ts:48-97 | A bad category shape is BadRequest with the store unchanged. Otherwise the request's fields are stored as a draft by the actor under the next id, with a fresh slug, and its categories are linked. No other article changes |
| Articles.Revise | src/modules/blog/services/blog.service.ts:211-230 | Each truthy field is overwritten and every other field is kept. The slug is re-derived from a truthy slug, else from a truthy title, else kept. Author and status are untouched |
| Articles.Relink | src/modules/blog/services/blog.service.ts:232-244 | An empty title list leaves the rows alone. A non-empty one replaces all of the article's rows with one row per title |
| Articles.Update | src/modules/blog/services/blog.service.ts:194-248 | NotFound comes first, then BadRequest for a bad category shape; both leave the store unchanged. Success changes only the article (by the partial-overwrite rules) and its junction rows |
| Articles.Delete | src/modules/blog/services/blog.service.ts:187-193 | An unknown id is NotFound. Under `Restrict`, an article that some junction, like, bookmark or comment row refers to is refused and the store is unchanged. Otherwise exactly that article is removed, together with the rows referring to it, and nothing else changes |
| Articles.DeleteLeavesNoOrphans | src/modules/blog/services/blog.service.ts:187-193 | After a successful delete, under either policy, no junction, like, bookmark or comment row refers to the article |
| Articles.RestrictRemovesOnlyTheRow | src/modules/blog/services/blog.service.ts:189 | Under `Restrict`, a successful delete removes the article row and changes nothing else |
| Articles.Suggest | src/modules/blog/services/blog.service.ts:352-353 | The suggestions are a prefix of the random order of at most three rows, and all rows when there are fewer |
| Articles.Detail | src/modules/blog/services/blog.service.ts:289-315 | An unknown slug is NotFound. Otherwise the view shows an article holding the slug. It is flagged liked (bookmarked) exactly when the caller has a positive id and the pair is recorded |
| Articles.OperationsKeepValid | src/modules/blog/services/blog.service.ts:73-83 | The id `create` hands out is fresh, and every article id stays below the next id across create, update and delete |
| Articles.SecondCreateSuffixed | src/modules/blog/services/blog.service.ts:68-72 | A second article from a title that normalises alike always gets a suffixed slug, distinct from the first unless both received the same suffix |
| Articles.CreateLeavesHolder | src/modules/blog/services/blog.service.ts:64-83 | After a create, some article holds the normalised source of its slug |
| Articles.CreateThenDetail | src/modules/blog/services/blog.service.ts:289-308 | Fetching by the slug a new article received returns that article, a draft by the actor, when no earlier article holds the slug |
| Articles.ResaveKeepsSlug | src/modules/blog/services/blog.service.ts:221-224 | Re-saving under a title whose slug the article holds and no other article holds keeps the slug, whichever holder the lookup prefers |
| Articles.DeleteThenMissing | src/modules/blog/services/blog.service.ts:182-193 | After a successful delete, looking up, updating and deleting the article again are all NotFound |
| Articles.SuggestionCount | src/modules/blog/services/blog.service.ts:319-357 | When the order lists every article once, there are min(3, number of articles) suggestions, all distinct and existing |
| Engagement.LikeToggle | src/modules/blog/services/blog.service.ts:249-266 | An unknown article is NotFound. Otherwise the caller's pair is removed (DisLike) exactly when it was present and added (Like) otherwise. No other pair and nothing else changes |
| Engagement.BookmarkToggle | src/modules/blog/services/blog.service.ts:267-287 | The same protocol over bookmarks, answering UnBookmark or Bookmark |
| Engagement.LikeTwice | src/modules/blog/services/blog.service.ts:249-266 | Toggling twice restores the store, and the two answers are Like and DisLike |
| Engagement.BookmarkTwice | src/modules/blog/services/blog.service.ts:267-287 | Toggling twice restores the store, and the two answers are Bookmark and UnBookmark |
| Engagement.LikeAnswerIsState | src/modules/blog/services/blog.service.ts:252-262 | After a toggle, the pair is present exactly when the answer was Like |
| Engagement.LikeCountStep | src/modules/blog/services/blog.service.ts:305 | A toggle moves the article's like count by exactly one and leaves every other article's count alone |
| Like.ILike | src/modules/blog/services/blog.service.ts:128 | A pattern without `%`, `_` or `\` matches exactly the texts equal to it up to ASCII case |
| Like.PlainSearchFinds | src/modules/blog/services/blog.service.ts:124-128 | For a term without `%`, `_` or `\`, the pattern the service builds matches exactly the texts containing the term, ignoring ASCII case |
| Like.EscapedPattern | src/modules/blog/services/blog.service.ts:126 | The escaped pattern equals the raw one for terms without `%`, `_` or `\` |
| Like.UnderscoreMatchesAnything | src/modules/blog/services/blog.service.ts:124-128 | As written, the term `_` matches the text `a`, which does not contain it |
| Like.EscapedSearchFinds | src/modules/blog/services/blog.service.ts:124-128 | With the term escaped, `ILIKE` matches exactly the texts containing the term, ignoring ASCII case |
| Catalog.InCategoryAsWritten | src/modules/blog/services/blog.service.ts:119-122 | Every article the category clause as written admits, the clause folded on both sides admits too |
| Catalog.Admits | src/modules/blog/services/blog.service.ts:118-129 | For a search term without `%`, `_` or `\` (or none), the list as written keeps an article exactly when its stored category title equals the lowered filter (if truthy) and its title, description and content contain the term ignoring case (if truthy) |
| Catalog.AdmitsIntendedMeans | src/modules/blog/services/blog.service.ts:115-129 | The intended list keeps an article exactly when it is in the filter category up to case (if truthy) and its title, description and content contain the search term ignoring case (if truthy), whatever the term |
| Catalog.PlainFiltersAgree | src/modules/blog/services/blog.service.ts:118-129 | The list as written never admits an article outside the folded category, and agrees with the intended list when stored titles are lower case and the term has no `%`, `_` or `\` |
| Catalog.UnderscoreListed | src/modules/blog/services/blog.service.ts:124-128 | As written, searching for `_` lists an article whose text is `a`; the intended list does not |
| Catalog.CategoryClauseExtends | src/modules/blog/services/blog.service.ts:119-122 | The folded category clause admits all the written one does, and both agree when stored titles are lower case |
| Catalog.CapitalCategoriesMissed | src/modules/blog/services/blog.service.ts:122 | As written, no filter value finds an article all of whose categories have a capital letter |
| Catalog.TechMissed | src/modules/blog/services/blog.service.ts:119-122 | As written, the filter `tech` finds neither an article under "Tech" nor one under "Life" |
| Catalog.TechSelected | src/modules/blog/services/blog.service.ts:119-122 | With folding, the filter `tech` finds the article under "Tech" and not the one under "Life" |
| Catalog.SearchSpansFields | src/modules/blog/services/blog.service.ts:128 | The search runs over the fields glued together, so a term may straddle title and description |
| Catalog.OrderByIdDesc | src/modules/blog/services/blog.service.ts:152 | Lists exactly the given ids, each once, in strictly decreasing order |
| Catalog.BlogList | src/modules/blog/services/blog.service.ts:115-155 | Lists exactly the articles the clauses as written admit, newest first |
| Catalog.BlogListIntended | src/modules/blog/services/blog.service.ts:115-155 | Lists exactly the articles the intended clauses admit, newest first |
| Catalog.MyBlogs | src/modules/blog/services/blog.service.ts:103-113 | Lists exactly the caller's articles, drafts included, newest first |
| Catalog.NoFilterListsAll | src/modules/blog/services/blog.service.ts:118-129 | Absent or empty filters admit every article, as written and as intended |

## Left out

- Catalog.BlogList: returns the whole filtered list, not one page. The pagination helpers (`paginationSolver`, `paginationGenerator`, skip and take, the total count) are not part of this model.
- Articles.Detail: the comments page from the comment service is not modelled. That service is not part of this model.
- Articles.Suggest: models only which rows the suggestion query returns. Its projected columns (author, category titles, counts) are not modelled, and the random order is an input.
- The projected columns of `blogList` and `findOneBySlug` (author name, profile, counts of bookmarks and accepted comments) are not modelled. Only the like count is (`Engagement.LikeCount`).
- Store.SlugHolder: when several articles share a slug, the database may return any of them. The model returns the one with the least id. `Articles.ResaveKeepsSlug` holds whichever holder is returned.
- Text.Lower: folds ASCII capitals only. JavaScript `toLowerCase` and PostgreSQL `LOWER` also fold other scripts, so the model does not cover them.
- Like.Matches: follows the `LIKE` rules for `%`, `_` and `\`. A pattern ending in a lone `\` raises an error in PostgreSQL, but the search pattern always ends in `%`.
- Categories.Resolve: the category service (`findOneByTitle`, `insertByTitle`) is not part of this model. `findOneByTitle` is taken to return the first stored category the relation `same` accepts, and `insertByTitle` to store the requested title unchanged. The clauses that new categories carry only listed titles, the `== title` case of `Categories.LinksTo`, and the premise of the category-case finding (titles stored with capitals) rest on that second assumption. Any case-insensitive uniqueness of titles the service enforces is not modelled.
- `randomId()` is not part of this model. Its result is the `suffix` parameter.
- `request.user` is the `actor` or `caller` parameter. The `isNaN` test in `findOneBySlug` is covered by the caller id being an integer or absent.
- The role metadata read through `Reflector` is the `required` parameter of `RoleGuard.CanActivate`.
- Request validation of the DTOs is not modelled. Fields are taken as typed, with `categories` as a string, an array or any other shape.
- Asynchrony and concurrency are not modelled. Each operation is one atomic step, so the check-then-act race of the toggles is outside the model.
- Articles.Delete: the entity definitions are not part of this model, so the foreign-key action of the junction, like, bookmark and comment tables is the `policy` parameter, with one action for all four. Of a comment row only its article is modelled. A refused delete is the error `Refused`; its rendering as an HTTP response is not modelled.
- Strings are sequences of code points, not UTF-16 units. None of the characters the slug expressions name lies outside the Basic Multilingual Plane.
- `TokensService`, the Google strategy, the auth module and the blog controller are not modelled: they are token signing, OAuth configuration and routing, not core logic.

## Findings

| source | as written | input that shows it | evidently intended | confidence | as-written member | corrected member |
|---|---|---|---|---|---|---|
| src/modules/blog/services/blog.service.ts:124-128 | The search term is put between `%` and bound to `ILIKE` unescaped, so `%`, `_` and `\` in it act as wildcards and escape | term `_`, article text `a`: the article is listed though it holds no underscore | a case-insensitive substring search: the term is wrapped in `%` on both sides and compared with `ILIKE` | not executed; high | Catalog.UnderscoreListed | Catalog.AdmitsIntendedMeans |
| src/modules/blog/services/blog.service.ts:119-122 | The stored category title is compared, without case folding, with the lower-cased filter | categories "Tech" and "Life", filter `tech`: the article under "Tech" is not listed | a match ignoring case on both sides (the filter is lowered twice) | not executed; medium, as the category service that stores titles is not part of this model | Catalog.TechMissed | Catalog.TechSelected |

=== FILE: articles.dfy ===
/** The article lifecycle of the blog service: create, update, delete, and
    the detail view fetched by slug. Every operation takes the store and
    returns its outcome together with the new store; the acting user, the
    random suffix, the category lookup relation and the random order of the
    suggestion query are inputs. */
module Articles {
  import opened Outcomes
  import opened Store
  import opened Categories
  import Slug

  /** The acknowledgement messages of create, update and delete. */
  datatype Ack = Created | Updated | Deleted

  /** The create request body. `slug` may be absent; the other fields are
      stored as given. */
  datatype CreateInput = CreateInput(
    title: string,
    slug: Option<string>,
    content: string,
    description: string,
    image: string,
    timeForStudy: int,
    categories: CategoryInput)

  /** The update request body: every field may be absent. */
  datatype UpdateInput = UpdateInput(
    title: Option<string>,
    slug: Option<string>,
    content: Option<string>,
    description: Option<string>,
    image: Option<string>,
    timeForStudy: Option<int>,
    categories: CategoryInput)

  /** The slug an article receives: the normalised source, with `-` and the
      random suffix appended when the slug lookup returns an article other
      than `self` (the article being updated; none on create). The lookup is
      not repeated after the suffix is appended. */
  function UniqueSlug(articles: map<ArticleId, Article>, source: string, self: Option<ArticleId>, suffix: string): (r: string)
    ensures r == Slug.Normalize(source) || r == Slug.Normalize(source) + "-" + suffix
    ensures self.None? ==>
              (r == Slug.Normalize(source) <==> forall id :: id in articles ==> articles[id].slug != Slug.Normalize(source))
    ensures self.Some? ==>
              (r == Slug.Normalize(source) <==>
                 SlugHolder(articles, Slug.Normalize(source)).None? ||
                 SlugHolder(articles, Slug.Normalize(source)) == self)
  {
    var n := Slug.Normalize(source);
    var holder := SlugHolder(articles, n);
    if holder.Some? && holder != self then
      assert |n + "-" + suffix| > |n|;
      n + "-" + suffix
    else n
  }

  /** The draft `create` stores: the request's fields as given, status
      Draft, owned by the actor. */
  predicate DraftOf(a: Article, actor: UserId, input: CreateInput) {
    && a.status == Draft
    && a.authorId == actor
    && a.title == input.title && a.description == input.description
    && a.content == input.content && a.image == input.image
    && a.timeForStudy == input.timeForStudy
  }

  /** The slug `create` derives from `source` among `articles`: the
      normalised source, suffixed with `-` and the random suffix exactly
      when some article already holds it. */
  predicate FreshSlug(slug: string, articles: map<ArticleId, Article>, source: string, suffix: string) {
    var n := Slug.Normalize(source);
    && (slug == n <==> forall id :: id in articles ==> articles[id].slug != n)
    && (slug != n ==> slug == n + "-" + suffix)
  }

  /** `create`: shape-check the categories, derive the slug from the
      explicit slug or else the title, store a draft owned by the actor
      under the next id, then link the categories. */
  function Create(st: Store, actor: UserId, input: CreateInput, suffix: string, same: (string, string) -> bool): (r: (Result<Ack>, Store))
    ensures input.categories.OtherShape? ==> r == (Err(BadRequest), st)
    ensures !input.categories.OtherShape? ==>
              && r.0 == Ok(Created)
              && st.nextId in r.1.articles
              && r.1.articles == st.articles[st.nextId := r.1.articles[st.nextId]]
              && r.1.nextId == st.nextId + 1
    ensures !input.categories.OtherShape? ==>
              && DraftOf(r.1.articles[st.nextId], actor, input)
              && FreshSlug(r.1.articles[st.nextId].slug, st.articles, input.slug.GetOr(input.title), suffix)
    ensures !input.categories.OtherShape? ==>
              Linked(st.(articles := r.1.articles, nextId := r.1.nextId), r.1, st.nextId,
                     ParseCategories(input.categories).value, same)
  {
    match ParseCategories(input.categories)
    case Err(e) => (Err(e), st)
    case Ok(titles) =>
      var slug := UniqueSlug(st.articles, input.slug.GetOr(input.title), None, suffix);
      var a := Article(slug, input.title, input.description, input.content, input.image,
                       Draft, input.timeForStudy, actor);
      var id := st.nextId;
      var st1 := st.(articles := st.articles[id := a], nextId := id + 1);
      (Ok(Created), LinkAll(st1, id, titles, same))
  }

  /** The value a partial update leaves in a text field: the new value when
      it is truthy, the stored one otherwise. */
  function Overwrite(given: Option<string>, stored: string): string {
    if Truthy(given) then given.value else stored
  }

  /** The source `update` derives a new slug from: an explicit slug wins
      over the title; neither truthy means no new slug. */
  function SlugSource(input: UpdateInput): Option<string> {
    if Truthy(input.slug) then input.slug
    else if Truthy(input.title) then input.title
    else None
  }

  /** The effect of a partial update on the fields other than the slug:
      each truthy field is taken from the request, each other field is
      kept; author and status are never touched. */
  predicate Overwritten(before: Article, after: Article, input: UpdateInput) {
    && after.authorId == before.authorId
    && after.status == before.status
    && (Truthy(input.title) ==> after.title == input.title.value)
    && (!Truthy(input.title) ==> after.title == before.title)
    && (Truthy(input.description) ==> after.description == input.description.value)
    && (!Truthy(input.description) ==> after.description == before.description)
    && (Truthy(input.content) ==> after.content == input.content.value)
    && (!Truthy(input.content) ==> after.content == before.content)
    && (Truthy(input.image) ==> after.image == input.image.value)
    && (!Truthy(input.image) ==> after.image == before.image)
    && (TruthyNumber(input.timeForStudy) ==> after.timeForStudy == input.timeForStudy.value)
    && (!TruthyNumber(input.timeForStudy) ==> after.timeForStudy == before.timeForStudy)
  }

  /** The slug after an update of article `id`: kept when neither slug nor
      title is truthy, otherwise derived from the slug if truthy, else from
      the title. */
  predicate Reslugged(before: Article, after: Article, articles: map<ArticleId, Article>, id: ArticleId,
                      input: UpdateInput, suffix: string) {
    && (!Truthy(input.title) && !Truthy(input.slug) ==> after.slug == before.slug)
    && (Truthy(input.slug) ==> after.slug == UniqueSlug(articles, input.slug.value, Some(id), suffix))
    && (!Truthy(input.slug) && Truthy(input.title) ==>
          after.slug == UniqueSlug(articles, input.title.value, Some(id), suffix))
  }

  /** The stored article after a partial update. */
  function Revise(articles: map<ArticleId, Article>, id: ArticleId, before: Article, input: UpdateInput, suffix: string): (after: Article)
    ensures Overwritten(before, after, input)
    ensures Reslugged(before, after, articles, id, input, suffix)
  {
    var source := SlugSource(input);
    before.(
      title := Overwrite(input.title, before.title),
      slug := if source.Some? then UniqueSlug(articles, source.value, Some(id), suffix) else before.slug,
      description := Overwrite(input.description, before.description),
      content := Overwrite(input.content, before.content),
      image := Overwrite(input.image, before.image),
      timeForStudy := if TruthyNumber(input.timeForStudy) then input.timeForStudy.value else before.timeForStudy)
  }

  /** The junction rows after an update: an empty list leaves them alone,
      a non-empty one replaces every row of the article. */
  function Relink(st: Store, id: ArticleId, titles: seq<string>, same: (string, string) -> bool): (r: Store)
    ensures titles == [] ==> r == st
    ensures titles != [] ==> Linked(st.(links := DropLinksOf(st.links, id)), r, id, titles, same)
  {
    if titles == [] then st
    else LinkAll(st.(links := DropLinksOf(st.links, id)), id, titles, same)
  }

  /** `update`: NotFound first, then the category shape check; then the
      partial overwrite of the article, and, when the category list is
      non-empty, the replacement of all its junction rows. No ownership
      check is made. */
  function Update(st: Store, id: ArticleId, input: UpdateInput, suffix: string, same: (string, string) -> bool): (r: (Result<Ack>, Store))
    ensures id !in st.articles ==> r == (Err(NotFound), st)
    ensures id in st.articles && input.categories.OtherShape? ==> r == (Err(BadRequest), st)
    ensures r.0.Ok? <==> id in st.articles && !input.categories.OtherShape?
    ensures r.0.Ok? ==>
              && r.0.value == Updated
              && id in r.1.articles
              && r.1.articles == st.articles[id := r.1.articles[id]]
              && Overwritten(st.articles[id], r.1.articles[id], input)
              && Reslugged(st.articles[id], r.1.articles[id], st.articles, id, input, suffix)
    ensures r.0.Ok? ==>
              var titles := ParseCategories(input.categories).value;
              var st1 := st.(articles := r.1.articles);
              && (titles == [] ==> r.1 == st1)
              && (titles != [] ==> Linked(st1.(links := DropLinksOf(st.links, id)), r.1, id, titles, same))
  {
    match CheckExist(st, id)
    case Err(e) => (Err(e), st)
    case Ok(before) =>
      match ParseCategories(input.categories)
      case Err(e) => (Err(e), st)
      case Ok(titles) =>
        var after := Revise(st.articles, id, before, input, suffix);
        (Ok(Updated), Relink(st.(articles := st.articles[id := after]), id, titles, same))
  }

  /** What the database does with the junction, like, bookmark and comment
      rows of an article being deleted: refuse the delete while any exist (the
      default foreign-key action) or delete them with it. */
  datatype OnDelete = Restrict | Cascade

  /** Some junction, like, bookmark or comment row refers to the article. */
  predicate Referenced(st: Store, id: ArticleId) {
    || (exists i :: 0 <= i < |st.links| && st.links[i].articleId == id)
    || (exists p :: p in st.likes && p.1 == id)
    || (exists p :: p in st.bookmarks && p.1 == id)
    || st.comments[id] > 0
  }

  /** `delete`: NotFound when the id is unknown; otherwise the statement
      removes the article row, and what happens to the rows referring to it
      is the `policy` of the foreign keys. */
  function Delete(st: Store, id: ArticleId, policy: OnDelete): (r: (Result<Ack>, Store))
    ensures id !in st.articles ==> r == (Err(NotFound), st)
    ensures id in st.articles && policy == Restrict && Referenced(st, id) ==> r == (Err(Refused), st)
    ensures r.0.Ok? <==> id in st.articles && (policy == Cascade || !Referenced(st, id))
    ensures r.0.Ok? ==>
              && r.0 == Ok(Deleted)
              && r.1.articles.Keys == st.articles.Keys - {id}
              && (forall j :: j in r.1.articles ==> r.1.articles[j] == st.articles[j])
              && r.1.categories == st.categories && r.1.nextId == st.nextId
              && (forall l :: multiset(r.1.links)[l] == if l.articleId == id then 0 else multiset(st.links)[l])
              && (forall p :: p in r.1.likes <==> p in st.likes && p.1 != id)
              && (forall p :: p in r.1.bookmarks <==> p in st.bookmarks && p.1 != id)
              && (forall a :: r.1.comments[a] == if a == id then 0 else st.comments[a])
  {
    match CheckExist(st, id)
    case Err(e) => (Err(e), st)
    case Ok(_) =>
      if policy == Restrict && Referenced(st, id) then (Err(Refused), st)
      else
        assert policy.Cascade? || !Referenced(st, id);
        (Ok(Deleted), st.(articles := st.articles - {id},
                          links := DropLinksOf(st.links, id),
                          likes := (set p | p in st.likes && p.1 != id),
                          bookmarks := (set p | p in st.bookmarks && p.1 != id),
                          comments := st.comments[id := 0]))
  }

  /** After a successful delete, under either policy, no row refers to the
      article any more. */
  lemma DeleteLeavesNoOrphans(st: Store, id: ArticleId, policy: OnDelete)
    ensures Delete(st, id, policy).0.Ok? ==> !Referenced(Delete(st, id, policy).1, id)
  {
    var st1 := Delete(st, id, policy).1;
    if Delete(st, id, policy).0.Ok? {
      forall i | 0 <= i < |st1.links|
        ensures st1.links[i].articleId != id
      {
        assert multiset(st1.links)[st1.links[i]] > 0;
      }
    }
  }

  /** Under `Restrict` a successful delete removes the article row and
      nothing else. */
  lemma RestrictRemovesOnlyTheRow(st: Store, id: ArticleId)
    ensures Delete(st, id, Restrict).0.Ok? ==>
              Delete(st, id, Restrict).1 == st.(articles := st.articles - {id})
  {
    if Delete(st, id, Restrict).0.Ok? {
      DropNothing(st.links, id);
      assert (set p | p in st.likes && p.1 != id) == st.likes;
      assert (set p | p in st.bookmarks && p.1 != id) == st.bookmarks;
      assert st.comments[id := 0] == st.comments;
    }
  }

  /** What the detail view reports: the article found, whether the caller
      liked and bookmarked it, and the suggested article ids. */
  datatype DetailView = DetailView(articleId: ArticleId, article: Article, isLiked: bool, isBookmarked: bool, suggestions: seq<ArticleId>)

  /** The suggestion query: the first three rows of the store's random
      ordering, or all of them when there are fewer. */
  function Suggest(order: seq<ArticleId>): (r: seq<ArticleId>)
    ensures |r| <= 3 && |r| <= |order|
    ensures |r| == 3 || r == order
    ensures r == order[..|r|]
  {
    if |order| <= 3 then order else order[..3]
  }

  /** The caller counts as identified only with a positive numeric id. */
  predicate Identified(caller: Option<UserId>) {
    caller.Some? && caller.value > 0
  }

  /** `findOneBySlug`: NotFound when no article holds the slug; otherwise the
      like and bookmark flags, which are looked up only for an identified
      caller and are false for everyone else. */
  function Detail(st: Store, slug: string, caller: Option<UserId>, order: seq<ArticleId>): (r: Result<DetailView>)
    ensures r.Err? <==> forall id :: id in st.articles ==> st.articles[id].slug != slug
    ensures r.Err? ==> r.error == NotFound
    ensures r.Ok? ==> r.value.articleId in st.articles && r.value.article == st.articles[r.value.articleId]
    ensures r.Ok? ==> r.value.article.slug == slug
    ensures r.Ok? ==> (r.value.isLiked <==> Identified(caller) && (caller.value, r.value.articleId) in st.likes)
    ensures r.Ok? ==> (r.value.isBookmarked <==> Identified(caller) && (caller.value, r.value.articleId) in st.bookmarks)
    ensures r.Ok? ==> r.value.suggestions == Suggest(order)
  {
    match SlugHolder(st.articles, slug)
    case None => Err(NotFound)
    case Some(id) =>
      var liked := Identified(caller) && (caller.value, id) in st.likes;
      var bookmarked := Identified(caller) && (caller.value, id) in st.bookmarks;
      Ok(DetailView(id, st.articles[id], liked, bookmarked, Suggest(order)))
  }

  /** The id `create` hands out is fresh, and the store's guarantee holds
      after every operation. */
  lemma OperationsKeepValid(st: Store, actor: UserId, id: ArticleId, created: CreateInput, updated: UpdateInput,
                            policy: OnDelete, suffix: string, same: (string, string) -> bool)
    requires Valid(st)
    ensures st.nextId !in st.articles
    ensures Valid(Create(st, actor, created, suffix, same).1)
    ensures Valid(Update(st, id, updated, suffix, same).1)
    ensures Valid(Delete(st, id, policy).1)
  {
  }

  /** Two creates whose slug sources normalise alike: the second always
      gets the suffix, so the two slugs differ unless the first one was
      suffixed too and both suffixes are the same. */
  lemma SecondCreateSuffixed(st: Store, a1: UserId, in1: CreateInput, s1: string,
                             a2: UserId, in2: CreateInput, s2: string, same: (string, string) -> bool)
    requires Valid(st)
    requires !in1.categories.OtherShape? && !in2.categories.OtherShape?
    requires Slug.Normalize(in1.slug.GetOr(in1.title)) == Slug.Normalize(in2.slug.GetOr(in2.title))
    ensures var st1 := Create(st, a1, in1, s1, same).1;
            var st2 := Create(st1, a2, in2, s2, same).1;
            var n := Slug.Normalize(in1.slug.GetOr(in1.title));
            && st2.articles[st1.nextId].slug == n + "-" + s2
            && (st2.articles[st1.nextId].slug == st2.articles[st.nextId].slug ==>
                  st2.articles[st.nextId].slug == n + "-" + s1 && s1 == s2)
  {
    var st1 := Create(st, a1, in1, s1, same).1;
    var n := Slug.Normalize(in1.slug.GetOr(in1.title));
    CreateLeavesHolder(st, a1, in1, s1, same);
    var st2 := Create(st1, a2, in2, s2, same).1;
    var first := st1.articles[st.nextId];
    assert st2.articles[st.nextId] == first;
    if first.slug == n + "-" + s2 {
      SuffixInjective(n, s1, s2);
    }
  }

  /** After a create, some article holds the normalised source of its slug:
      the new one when it was not suffixed, the earlier holder otherwise. */
  lemma CreateLeavesHolder(st: Store, actor: UserId, input: CreateInput, suffix: string, same: (string, string) -> bool)
    requires Valid(st)
    requires !input.categories.OtherShape?
    ensures var st1 := Create(st, actor, input, suffix, same).1;
            exists j :: j in st1.articles && st1.articles[j].slug == Slug.Normalize(input.slug.GetOr(input.title))
  {
    var st1 := Create(st, actor, input, suffix, same).1;
    var n := Slug.Normalize(input.slug.GetOr(input.title));
    if st1.articles[st.nextId].slug != n {
      var j :| j in st.articles && st.articles[j].slug == n;
      assert st1.articles[j] == st.articles[j];
    }
  }

  /** Two suffixed slugs of one stem are equal only for equal suffixes. */
  lemma SuffixInjective(n: string, s1: string, s2: string)
    requires n + "-" + s1 == n + "-" + s2
    ensures s1 == s2
  {
    assert (n + "-" + s1)[|n| + 1..] == s1;
    assert (n + "-" + s2)[|n| + 1..] == s2;
  }

  /** Create then fetch: when no earlier article holds the slug the new
      article received, the detail lookup by that slug returns the new
      article. */
  lemma CreateThenDetail(st: Store, actor: UserId, input: CreateInput, suffix: string, same: (string, string) -> bool,
                         caller: Option<UserId>, order: seq<ArticleId>)
    requires Valid(st)
    requires !input.categories.OtherShape?
    requires forall id :: id in st.articles ==>
               st.articles[id].slug != Create(st, actor, input, suffix, same).1.articles[st.nextId].slug
    ensures var st1 := Create(st, actor, input, suffix, same).1;
            var d := Detail(st1, st1.articles[st.nextId].slug, caller, order);
            && d.Ok?
            && d.value.articleId == st.nextId
            && d.value.article.authorId == actor
            && d.value.article.status == Draft
            && (d.value.isLiked <==> Identified(caller) && (caller.value, st.nextId) in st.likes)
  {
    var st1 := Create(st, actor, input, suffix, same).1;
    var s := st1.articles[st.nextId].slug;
    var h := SlugHolder(st1.articles, s);
    assert h.Some?;
    assert h.value !in st.articles;
  }

  /** Re-saving an article under a title whose slug it alone holds leaves
      its slug unchanged, whichever holder the lookup would prefer. */
  lemma ResaveKeepsSlug(st: Store, id: ArticleId, input: UpdateInput, suffix: string, same: (string, string) -> bool)
    requires id in st.articles && !input.categories.OtherShape?
    requires !Truthy(input.slug) && Truthy(input.title)
    requires Slug.Normalize(input.title.value) == st.articles[id].slug
    requires forall j :: j in st.articles && j != id ==> st.articles[j].slug != st.articles[id].slug
    ensures Update(st, id, input, suffix, same).1.articles[id].slug == st.articles[id].slug
  {
    var h := SlugHolder(st.articles, st.articles[id].slug);
    assert h.Some?;
    assert h.value <= id;
  }

  /** Deleting is not repeatable: once an article is gone, looking it up,
      updating it and deleting it again all raise NotFound. */
  lemma DeleteThenMissing(st: Store, id: ArticleId, policy: OnDelete, again: OnDelete, input: UpdateInput,
                           suffix: string, same: (string, string) -> bool)
    ensures var (r, st1) := Delete(st, id, policy);
            r.Ok? ==>
              && CheckExist(st1, id) == Err(NotFound)
              && Update(st1, id, input, suffix, same) == (Err(NotFound), st1)
              && Delete(st1, id, again) == (Err(NotFound), st1)
  {
  }

  /** The elements of a sequence, as a set. */
  function Elements(s: seq<ArticleId>): set<ArticleId> {
    set x | x in s
  }

  /** A sequence without repeats. */
  predicate Distinct(s: seq<ArticleId>) {
    forall i, j :: 0 <= i < j < |s| ==> s[i] != s[j]
  }

  /** A sequence without repeats has as many elements as its set. */
  lemma {:induction false} DistinctSize(s: seq<ArticleId>)
    requires Distinct(s)
    ensures |Elements(s)| == |s|
  {
    if s != [] {
      var t := s[1..];
      assert Distinct(t) by {
        forall i, j | 0 <= i < j < |t| ensures t[i] != t[j] {
          assert t[i] == s[i + 1] && t[j] == s[j + 1];
        }
      }
      DistinctSize(t);
      assert Elements(s) == {s[0]} + Elements(t) by {
        forall x ensures x in Elements(s) <==> x in {s[0]} + Elements(t) {
          if x in s && x != s[0] {
            var i :| 0 <= i < |s| && s[i] == x;
            assert t[i - 1] == x;
          }
        }
      }
      assert s[0] !in Elements(t) by {
        forall i | 0 <= i < |t| ensures t[i] != s[0] {
          assert t[i] == s[i + 1];
        }
      }
    }
  }

  /** When the random ordering lists every article exactly once, the
      suggestions are three distinct existing articles, or all of them
      when there are fewer than three. */
  lemma SuggestionCount(st: Store, order: seq<ArticleId>)
    requires Distinct(order) && Elements(order) == st.articles.Keys
    ensures |Suggest(order)| == if |st.articles| < 3 then |st.articles| else 3
    ensures Distinct(Suggest(order))
    ensures forall k :: 0 <= k < |Suggest(order)| ==> Suggest(order)[k] in st.articles
  {
    DistinctSize(order);
    assert |st.articles.Keys| == |st.articles|;
    var r := Suggest(order);
    forall k | 0 <= k < |r| ensures r[k] in st.articles {
      assert r[k] == order[k];
    }
  }
}

=== FILE: catalog.dfy ===
/** The article listings: the public list with its optional category and
    search filters, and the caller's own articles. Both are ordered by id,
    newest first. */
module Catalog {
  import opened Outcomes
  import opened Store
  import Text
  import Like
  import IntSets

  /** The list filters; an absent or empty value means "no filter". */
  datatype Filter = Filter(category: Option<string>, search: Option<string>)

  /** The category clause as the service writes it: one of the article's
      junction rows points at a category whose stored title, taken as
      stored, equals the lower-cased filter value. Whatever it admits, the
      case-folded clause admits too. */
  predicate InCategoryAsWritten(st: Store, id: ArticleId, category: string): (r: bool)
    ensures r ==> InCategory(st, id, category)
  {
    Text.LowerIdempotent(category);
    exists i :: 0 <= i < |st.links| && st.links[i].articleId == id &&
                st.links[i].categoryId < |st.categories| &&
                st.categories[st.links[i].categoryId] == Text.Lower(category)
  }

  /** The category clause with both sides case folded, as the lowering of
      the filter evidently intends: one of the article's junction rows
      points at a category whose title equals the filter value up to ASCII
      case. */
  predicate InCategory(st: Store, id: ArticleId, category: string) {
    exists i :: 0 <= i < |st.links| && st.links[i].articleId == id &&
                st.links[i].categoryId < |st.categories| &&
                Text.Lower(st.categories[st.links[i].categoryId]) == Text.Lower(category)
  }

  /** The folded clause admits everything the clause as written admits, and
      the two agree on a store whose category titles are all lower case. */
  lemma CategoryClauseExtends(st: Store, id: ArticleId, category: string)
    ensures InCategoryAsWritten(st, id, category) ==> InCategory(st, id, category)
    ensures (forall c :: 0 <= c < |st.categories| ==> Text.Lower(st.categories[c]) == st.categories[c]) ==>
              (InCategory(st, id, category) <==> InCategoryAsWritten(st, id, category))
  {
    if InCategoryAsWritten(st, id, category) {
      var i :| 0 <= i < |st.links| && st.links[i].articleId == id &&
               st.links[i].categoryId < |st.categories| &&
               st.categories[st.links[i].categoryId] == Text.Lower(category);
      Text.LowerIdempotent(category);
      assert Text.Lower(st.categories[st.links[i].categoryId]) == Text.Lower(category);
    }
  }

  /** A title with an ASCII capital in it. */
  predicate HasCapital(t: string) {
    exists i :: 0 <= i < |t| && 'A' <= t[i] <= 'Z'
  }

  /** A stored category title with an ASCII capital in it never equals a
      lower-cased filter value. */
  lemma CapitalTitleNeverMatches(title: string, category: string)
    requires HasCapital(title)
    ensures title != Text.Lower(category)
  {
    var i :| 0 <= i < |title| && 'A' <= title[i] <= 'Z';
    if |title| == |category| {
      assert Text.Lower(category)[i] == Text.LowerChar(category[i]);
    }
  }

  /** As written, the category filter never finds an article all of whose
      categories were stored with a capital letter, whatever the filter. */
  lemma CapitalCategoriesMissed(st: Store, id: ArticleId, category: string)
    requires forall i :: 0 <= i < |st.links| && st.links[i].articleId == id && st.links[i].categoryId < |st.categories| ==>
               HasCapital(st.categories[st.links[i].categoryId])
    ensures !InCategoryAsWritten(st, id, category)
  {
    forall i | 0 <= i < |st.links| && st.links[i].articleId == id && st.links[i].categoryId < |st.categories|
      ensures st.categories[st.links[i].categoryId] != Text.Lower(category)
    {
      CapitalTitleNeverMatches(st.categories[st.links[i].categoryId], category);
    }
  }

  /** Categories "Tech" and "Life", article 1 filed under "Tech", article 2
      under "Life": the folded clause with filter "tech" selects article 1
      and not article 2. */
  lemma TechSelected(st: Store)
    requires st.categories == ["Tech", "Life"]
    requires st.links == [Link(1, 0), Link(2, 1)]
    ensures InCategory(st, 1, "tech") && !InCategory(st, 2, "tech")
  {
    assert Text.Lower("Tech") == "tech" && Text.Lower("tech") == "tech";
    assert st.links[0].articleId == 1 && st.links[0].categoryId == 0;
    assert Text.Lower("Life")[0] != Text.Lower("tech")[0];
  }

  /** The same store: the clause as written selects neither article. */
  lemma TechMissed(st: Store)
    requires st.categories == ["Tech", "Life"]
    requires st.links == [Link(1, 0), Link(2, 1)]
    ensures !InCategoryAsWritten(st, 1, "tech") && !InCategoryAsWritten(st, 2, "tech")
  {
    assert "Tech"[0] == 'T' && "Life"[0] == 'L';
    CapitalCategoriesMissed(st, 1, "tech");
    CapitalCategoriesMissed(st, 2, "tech");
  }

  /** The text the search runs over: title, description and content
      concatenated with nothing in between. */
  function SearchText(a: Article): string {
    a.title + a.description + a.content
  }

  /** Whether the list keeps an article, as the service writes the
      clauses: every truthy filter must hold, the category compared as
      stored and the search term bound into the pattern unescaped. With a
      term free of `%`, `_` and `\`, the search is case-insensitive
      containment. */
  predicate Admits(st: Store, f: Filter, id: ArticleId): (r: bool)
    requires id in st.articles
    ensures (Truthy(f.search) ==> Like.Plain(f.search.value)) ==>
              (r <==> && (Truthy(f.category) ==> InCategoryAsWritten(st, id, f.category.value))
                      && (Truthy(f.search) ==>
                            Text.Contains(Text.Lower(SearchText(st.articles[id])), Text.Lower(f.search.value))))
  {
    Like.PlainSearchFinds(f.search.GetOr(""), SearchText(st.articles[id]));
    && (Truthy(f.category) ==> InCategoryAsWritten(st, id, f.category.value))
    && (Truthy(f.search) ==> Like.ILike(Like.SearchPattern(f.search.value), SearchText(st.articles[id])))
  }

  /** The clauses as evidently intended: the category compared up to case
      on both sides, and the search term escaped (see `Like.EscapedPattern`). */
  predicate AdmitsIntended(st: Store, f: Filter, id: ArticleId)
    requires id in st.articles
  {
    && (Truthy(f.category) ==> InCategory(st, id, f.category.value))
    && (Truthy(f.search) ==> Like.ILike(Like.EscapedPattern(f.search.value), SearchText(st.articles[id])))
  }

  /** What the intended filters mean: the article is in the category, and
      its text contains the search term, ignoring ASCII case. */
  lemma AdmitsIntendedMeans(st: Store, f: Filter, id: ArticleId)
    requires id in st.articles
    ensures AdmitsIntended(st, f, id) <==>
              && (Truthy(f.category) ==> InCategory(st, id, f.category.value))
              && (Truthy(f.search) ==>
                    Text.Contains(Text.Lower(SearchText(st.articles[id])), Text.Lower(f.search.value)))
  {
    if Truthy(f.search) {
      Like.EscapedSearchFinds(f.search.value, SearchText(st.articles[id]));
    }
  }

  /** The clauses as written and as intended agree whenever the stored
      category titles are lower case and the search term has no `%`, `_`
      or `\`; the intended category clause admits more in general. */
  lemma PlainFiltersAgree(st: Store, f: Filter, id: ArticleId)
    requires id in st.articles
    ensures Admits(st, f, id) && Truthy(f.category) ==> InCategory(st, id, f.category.value)
    ensures (forall c :: 0 <= c < |st.categories| ==> Text.Lower(st.categories[c]) == st.categories[c]) &&
            (Truthy(f.search) ==> Like.Plain(f.search.value)) ==>
              (Admits(st, f, id) <==> AdmitsIntended(st, f, id))
  {
    AdmitsIntendedMeans(st, f, id);
    if Truthy(f.category) {
      CategoryClauseExtends(st, id, f.category.value);
    }
  }

  /** Searching for `_` lists an article whose text is "a": the list as
      written admits it, the intended one does not. */
  lemma UnderscoreListed(st: Store, id: ArticleId)
    requires id in st.articles && SearchText(st.articles[id]) == "a"
    ensures Admits(st, Filter(None, Some("_")), id)
    ensures !AdmitsIntended(st, Filter(None, Some("_")), id)
  {
    Like.UnderscoreMatchesAnything();
    AdmitsIntendedMeans(st, Filter(None, Some("_")), id);
  }

  /** The search runs over the fields glued together, so a term can match
      across the end of the title and the start of the description. */
  lemma SearchSpansFields(a: Article, x: string, y: string)
    requires |x| > 0 && |y| > 0
    requires Text.IsPrefix(y, a.description)
    requires |a.title| >= |x| && a.title[|a.title| - |x|..] == x
    ensures Text.Contains(SearchText(a), x + y)
  {
    var t := SearchText(a);
    var k := |a.title| - |x|;
    assert t[k..][..|x + y|] == x + y by {
      assert t[k..][..|x|] == a.title[k..];
      assert t[k..][|x|..|x + y|] == a.description[..|y|];
    }
  }

  /** Strictly decreasing: the `ORDER BY id DESC` order over distinct ids. */
  predicate Descending(r: seq<ArticleId>) {
    forall i, j :: 0 <= i < j < |r| ==> r[i] > r[j]
  }

  /** Lists a set of ids, greatest first. */
  method OrderByIdDesc(ids: set<ArticleId>) returns (r: seq<ArticleId>)
    ensures forall x :: x in r <==> x in ids
    ensures |r| == |ids|
    ensures Descending(r)
  {
    r := [];
    var rest := ids;
    while rest != {}
      invariant rest <= ids
      invariant forall x :: x in ids <==> x in r || x in rest
      invariant forall x :: x in r ==> x !in rest
      invariant |r| + |rest| == |ids|
      invariant Descending(r)
      invariant forall i, y :: 0 <= i < |r| && y in rest ==> r[i] > y
      decreases |rest|
    {
      var m := IntSets.Max(rest);
      r := r + [m];
      rest := rest - {m};
    }
  }

  /** `blogList` without its pagination: the articles the clauses as
      written admit, newest first. */
  method BlogList(st: Store, f: Filter) returns (r: seq<ArticleId>)
    ensures forall id :: id in r <==> id in st.articles && Admits(st, f, id)
    ensures Descending(r)
  {
    var ids := set id | id in st.articles && Admits(st, f, id);
    r := OrderByIdDesc(ids);
  }

  /** The list with the clauses as intended, newest first. */
  method BlogListIntended(st: Store, f: Filter) returns (r: seq<ArticleId>)
    ensures forall id :: id in r <==> id in st.articles && AdmitsIntended(st, f, id)
    ensures Descending(r)
  {
    var ids := set id | id in st.articles && AdmitsIntended(st, f, id);
    r := OrderByIdDesc(ids);
  }

  /** `myBlog`: the caller's articles, drafts included, newest first. */
  method MyBlogs(st: Store, user: UserId) returns (r: seq<ArticleId>)
    ensures forall id :: id in r <==> id in st.articles && st.articles[id].authorId == user
    ensures Descending(r)
  {
    var ids := set id | id in st.articles && st.articles[id].authorId == user;
    r := OrderByIdDesc(ids);
  }

  /** Without filters the list, as written or as intended, is every
      article. */
  lemma NoFilterListsAll(st: Store, id: ArticleId)
    requires id in st.articles
    ensures Admits(st, Filter(None, None), id) && AdmitsIntended(st, Filter(None, None), id)
    ensures Admits(st, Filter(Some(""), Some("")), id) && AdmitsIntended(st, Filter(Some(""), Some("")), id)
  {
  }
}

=== FILE: categories.dfy ===
/** Category handling in the blog service: the shape check on the
    `categories` field, find-or-create of each listed title, and the
    junction rows that link an article to its categories. The category
    service's lookup is not part of this model; it is represented by the
    relation `same(storedTitle, requestedTitle)`, and the lookup returns the
    first stored category the relation accepts. */
module Categories {
  import opened Outcomes
  import opened Store
  import Text

  /** The shapes the `categories` field can take: a comma-separated string,
      an array of titles, or anything else (including absent). */
  datatype CategoryInput = CommaList(text: string) | TitleList(titles: seq<string>) | OtherShape

  /** The shape check: a string is split on `,`, an array is used as is,
      any other shape is a BadRequest. */
  function ParseCategories(input: CategoryInput): (r: Result<seq<string>>)
    ensures r.Err? <==> input.OtherShape?
    ensures r.Err? ==> r.error == BadRequest
    ensures input.TitleList? ==> r == Ok(input.titles)
    ensures input.CommaList? ==>
              && |r.value| >= 1
              && (forall i :: 0 <= i < |r.value| ==> ',' !in r.value[i])
              && Text.Join(r.value, ',') == input.text
  {
    match input
    case CommaList(text) =>
      Text.JoinSplit(text, ',');
      Ok(Text.Split(text, ','))
    case TitleList(titles) => Ok(titles)
    case OtherShape => Err(BadRequest)
  }

  /** The first category at index `i` or later that the lookup accepts. */
  function FindFrom(cats: seq<string>, title: string, same: (string, string) -> bool, i: nat): (r: Option<nat>)
    requires i <= |cats|
    ensures r.Some? ==> i <= r.value < |cats| && same(cats[r.value], title)
    ensures r.Some? ==> forall j :: i <= j < r.value ==> !same(cats[j], title)
    ensures r.None? ==> forall j :: i <= j < |cats| ==> !same(cats[j], title)
    decreases |cats| - i
  {
    if i == |cats| then None
    else if same(cats[i], title) then Some(i)
    else FindFrom(cats, title, same, i + 1)
  }

  /** `findOneByTitle`: the first stored category the lookup accepts. */
  function FindCategory(cats: seq<string>, title: string, same: (string, string) -> bool): (r: Option<nat>)
    ensures r.Some? ==> r.value < |cats| && same(cats[r.value], title)
    ensures r.Some? ==> forall j :: 0 <= j < r.value ==> !same(cats[j], title)
    ensures r.None? <==> forall j :: 0 <= j < |cats| ==> !same(cats[j], title)
  {
    FindFrom(cats, title, same, 0)
  }

  /** Find-or-create: an accepted existing category is reused, otherwise a
      category with exactly the requested title is appended. */
  function Resolve(cats: seq<string>, title: string, same: (string, string) -> bool): (r: (seq<string>, nat))
    ensures r.1 < |r.0|
    ensures (exists j :: 0 <= j < |cats| && same(cats[j], title)) ==>
              && r.0 == cats
              && same(cats[r.1], title)
              && forall j :: 0 <= j < r.1 ==> !same(cats[j], title)
    ensures (forall j :: 0 <= j < |cats| ==> !same(cats[j], title)) ==>
              r.0 == cats + [title] && r.1 == |cats|
  {
    match FindCategory(cats, title, same)
    case Some(k) => (cats, k)
    case None => (cats + [title], |cats|)
  }

  /** Junction row `pos` links `article` to a category that either the
      lookup accepted for `title` or that carries exactly `title`. */
  predicate LinksTo(st: Store, pos: nat, article: ArticleId, title: string, same: (string, string) -> bool) {
    && pos < |st.links|
    && st.links[pos].articleId == article
    && st.links[pos].categoryId < |st.categories|
    && (same(st.categories[st.links[pos].categoryId], title)
        || st.categories[st.links[pos].categoryId] == title)
  }

  /** One iteration of the linking loop: resolve the title, insert a row. */
  function LinkOne(st: Store, article: ArticleId, title: string, same: (string, string) -> bool): (r: Store)
    ensures r.articles == st.articles && r.likes == st.likes && r.bookmarks == st.bookmarks
    ensures r.comments == st.comments
    ensures r.nextId == st.nextId
    ensures |r.links| == |st.links| + 1 && r.links[..|st.links|] == st.links
    ensures |st.categories| <= |r.categories| <= |st.categories| + 1
    ensures r.categories[..|st.categories|] == st.categories
    ensures |r.categories| == |st.categories| + 1 ==> r.categories[|st.categories|] == title
    ensures LinksTo(r, |st.links|, article, title, same)
    ensures FindCategory(st.categories, title, same).Some? ==>
              r.links[|st.links|].categoryId == FindCategory(st.categories, title, same).value
    ensures FindCategory(st.categories, title, same).Some? ==> r.categories == st.categories
    ensures FindCategory(st.categories, title, same).None? ==> r.categories == st.categories + [title]
    ensures |r.categories| == |st.categories| + 1 ==>
              forall j :: 0 <= j < |st.categories| ==> !same(st.categories[j], title)
  {
    var (cats, id) := Resolve(st.categories, title, same);
    st.(categories := cats, links := st.links + [Link(article, id)])
  }

  /** No category from index `from` on is accepted for the title of an
      earlier one: each was appended only after the lookup rejected every
      category before it. */
  predicate NewDistinct(cats: seq<string>, from: nat, same: (string, string) -> bool) {
    forall c1, c2 :: 0 <= c1 < c2 < |cats| && from <= c2 ==> !same(cats[c1], cats[c2])
  }

  /** What the linking loop does to a store: one junction row per listed
      title, in order, duplicates included, each linking to an acceptable
      category and reusing the one an existing lookup finds; new categories
      only ever carry listed titles, at most one per title, and none at all
      when every lookup already succeeds, and no new one is accepted for the
      title of a category before it (so a repeated title reuses the
      category its first occurrence created); nothing but categories and links
      changes. */
  predicate Linked(st: Store, r: Store, article: ArticleId, titles: seq<string>, same: (string, string) -> bool) {
    && r.articles == st.articles && r.likes == st.likes && r.bookmarks == st.bookmarks
    && r.comments == st.comments
    && r.nextId == st.nextId
    && |r.links| == |st.links| + |titles| && r.links[..|st.links|] == st.links
    && |r.categories| >= |st.categories| && r.categories[..|st.categories|] == st.categories
    && (forall c :: |st.categories| <= c < |r.categories| ==> r.categories[c] in titles)
    && |r.categories| <= |st.categories| + |titles|
    && NewDistinct(r.categories, |st.categories|, same)
    && ((forall k :: 0 <= k < |titles| ==> FindCategory(st.categories, titles[k], same).Some?) ==>
          r.categories == st.categories)
    && (forall k :: 0 <= k < |titles| ==> LinksTo(r, |st.links| + k, article, titles[k], same))
    && (forall k :: 0 <= k < |titles| && FindCategory(st.categories, titles[k], same).Some? ==>
          r.links[|st.links| + k].categoryId == FindCategory(st.categories, titles[k], same).value)
  }

  /** The linking loop of `create` and `update`. */
  function LinkAll(st: Store, article: ArticleId, titles: seq<string>, same: (string, string) -> bool): (r: Store)
    ensures Linked(st, r, article, titles, same)
    decreases |titles|
  {
    if titles == [] then
      assert st.links[..|st.links|] == st.links;
      assert st.categories[..|st.categories|] == st.categories;
      st
    else
      var st1 := LinkOne(st, article, titles[0], same);
      var r := LinkAll(st1, article, titles[1..], same);
      LinkAllStep(st, st1, r, article, titles, same);
      r
  }

  /** A title listed twice under a lookup that accepts a title for itself
      creates at most one category: the second occurrence reuses the first's. */
  lemma RepeatedTitleReused(st: Store, article: ArticleId, t: string, same: (string, string) -> bool)
    requires same(t, t)
    ensures |LinkAll(st, article, [t, t], same).categories| <= |st.categories| + 1
  {
  }

  /** Junction facts survive appending rows and categories. */
  predicate Extends(st: Store, r: Store) {
    && |st.links| <= |r.links| && r.links[..|st.links|] == st.links
    && |st.categories| <= |r.categories| && r.categories[..|st.categories|] == st.categories
  }

  /** A row that links to the right kind of category keeps doing so when the
      store only grows. */
  lemma LinksToStable(st: Store, r: Store, pos: nat, article: ArticleId, title: string, same: (string, string) -> bool)
    requires Extends(st, r)
    requires LinksTo(st, pos, article, title, same)
    ensures LinksTo(r, pos, article, title, same)
  {
    assert r.links[pos] == st.links[pos];
    assert r.categories[st.links[pos].categoryId] == st.categories[st.links[pos].categoryId];
  }

  /** The inductive step of the linking loop: the first title's row comes
      from one iteration, the others from the rest of the loop. */
  lemma LinkAllStep(st: Store, st1: Store, r: Store, article: ArticleId, titles: seq<string>, same: (string, string) -> bool)
    requires titles != []
    requires st1 == LinkOne(st, article, titles[0], same)
    requires Linked(st1, r, article, titles[1..], same)
    ensures Linked(st, r, article, titles, same)
  {
    StepPrefixes(st, st1, r, titles);
    StepLinks(st, st1, r, article, titles, same);
    StepFind(st, st1, r, article, titles, same);
    StepTable(st, st1, r, titles, same);
    StepFresh(st, st1, r, titles[0], same);
  }

  /** The step's new category, if any, is rejected for every earlier title,
      and the later ones are rejected for it. */
  lemma StepFresh(st: Store, st1: Store, r: Store, title: string, same: (string, string) -> bool)
    requires |st.categories| <= |st1.categories| <= |st.categories| + 1
    requires st1.categories[..|st.categories|] == st.categories
    requires |st1.categories| == |st.categories| + 1 ==>
               st1.categories[|st.categories|] == title &&
               forall j :: 0 <= j < |st.categories| ==> !same(st.categories[j], title)
    requires |r.categories| >= |st1.categories| && r.categories[..|st1.categories|] == st1.categories
    requires NewDistinct(r.categories, |st1.categories|, same)
    ensures NewDistinct(r.categories, |st.categories|, same)
  {
    var n := |st.categories|;
    forall c1, c2 | 0 <= c1 < c2 < |r.categories| && n <= c2
      ensures !same(r.categories[c1], r.categories[c2])
    {
      if c2 < |st1.categories| {
        assert r.categories[c2] == st1.categories[n] == title;
        assert r.categories[c1] == st1.categories[c1] == st.categories[c1];
      }
    }
  }

  /** The step adds at most one category per title, and none when every
      title's lookup already succeeds. */
  lemma StepTable(st: Store, st1: Store, r: Store, titles: seq<string>, same: (string, string) -> bool)
    requires titles != []
    requires |st.categories| <= |st1.categories| <= |st.categories| + 1
    requires st1.categories[..|st.categories|] == st.categories
    requires FindCategory(st.categories, titles[0], same).Some? ==> st1.categories == st.categories
    requires |r.categories| <= |st1.categories| + |titles[1..]|
    requires (forall k :: 0 <= k < |titles[1..]| ==> FindCategory(st1.categories, titles[1..][k], same).Some?) ==>
               r.categories == st1.categories
    ensures |r.categories| <= |st.categories| + |titles|
    ensures (forall k :: 0 <= k < |titles| ==> FindCategory(st.categories, titles[k], same).Some?) ==>
              r.categories == st.categories
  {
    if forall k :: 0 <= k < |titles| ==> FindCategory(st.categories, titles[k], same).Some? {
      assert FindCategory(st.categories, titles[0], same).Some?;
      forall k | 0 <= k < |titles[1..]|
        ensures FindCategory(st1.categories, titles[1..][k], same).Some?
      {
        assert titles[1..][k] == titles[k + 1];
      }
    }
  }

  /** The step keeps the old rows and categories as prefixes and only adds
      categories named in the list. */
  lemma StepPrefixes(st: Store, st1: Store, r: Store, titles: seq<string>)
    requires titles != []
    requires |st1.links| == |st.links| + 1 && st1.links[..|st.links|] == st.links
    requires |st.categories| <= |st1.categories| <= |st.categories| + 1
    requires st1.categories[..|st.categories|] == st.categories
    requires |st1.categories| == |st.categories| + 1 ==> st1.categories[|st.categories|] == titles[0]
    requires |r.links| == |st1.links| + |titles| - 1 && r.links[..|st1.links|] == st1.links
    requires |r.categories| >= |st1.categories| && r.categories[..|st1.categories|] == st1.categories
    requires forall c :: |st1.categories| <= c < |r.categories| ==> r.categories[c] in titles[1..]
    ensures |r.links| == |st.links| + |titles| && r.links[..|st.links|] == st.links
    ensures |r.categories| >= |st.categories| && r.categories[..|st.categories|] == st.categories
    ensures forall c :: |st.categories| <= c < |r.categories| ==> r.categories[c] in titles
  {
    assert r.links[..|st.links|] == r.links[..|st1.links|][..|st.links|];
    assert r.categories[..|st.categories|] == r.categories[..|st1.categories|][..|st.categories|];
    forall c | |st.categories| <= c < |r.categories|
      ensures r.categories[c] in titles
    {
      if c < |st1.categories| {
        assert r.categories[c] == st1.categories[c];
      } else {
        assert r.categories[c] in titles[1..];
      }
    }
  }

  /** The step's rows all link to an acceptable category. */
  lemma StepLinks(st: Store, st1: Store, r: Store, article: ArticleId, titles: seq<string>, same: (string, string) -> bool)
    requires titles != []
    requires |st1.links| == |st.links| + 1
    requires LinksTo(st1, |st.links|, article, titles[0], same)
    requires Extends(st1, r)
    requires forall k :: 0 <= k < |titles| - 1 ==> LinksTo(r, |st1.links| + k, article, titles[1..][k], same)
    ensures forall k :: 0 <= k < |titles| ==> LinksTo(r, |st.links| + k, article, titles[k], same)
  {
    var n := |st.links|;
    forall k | 0 <= k < |titles|
      ensures LinksTo(r, n + k, article, titles[k], same)
    {
      if k == 0 {
        LinksToStable(st1, r, n, article, titles[0], same);
      } else {
        assert titles[1..][k - 1] == titles[k];
        assert LinksTo(r, |st1.links| + (k - 1), article, titles[1..][k - 1], same);
      }
    }
  }

  /** The step reuses the category an existing lookup finds. */
  lemma StepFind(st: Store, st1: Store, r: Store, article: ArticleId, titles: seq<string>, same: (string, string) -> bool)
    requires titles != []
    requires |st1.links| == |st.links| + 1
    requires |st.categories| <= |st1.categories| && st1.categories[..|st.categories|] == st.categories
    requires FindCategory(st.categories, titles[0], same).Some? ==>
               st1.links[|st.links|].categoryId == FindCategory(st.categories, titles[0], same).value
    requires |r.links| >= |st1.links| && r.links[..|st1.links|] == st1.links
    requires |r.links| == |st1.links| + |titles| - 1
    requires forall k :: 0 <= k < |titles| - 1 && FindCategory(st1.categories, titles[1..][k], same).Some? ==>
               r.links[|st1.links| + k].categoryId == FindCategory(st1.categories, titles[1..][k], same).value
    ensures forall k :: 0 <= k < |titles| && FindCategory(st.categories, titles[k], same).Some? ==>
              r.links[|st.links| + k].categoryId == FindCategory(st.categories, titles[k], same).value
  {
    var n := |st.links|;
    PrefixFind(st.categories, st1.categories, titles, same);
    forall k | 0 <= k < |titles| && FindCategory(st.categories, titles[k], same).Some?
      ensures r.links[n + k].categoryId == FindCategory(st.categories, titles[k], same).value
    {
      if k == 0 {
        assert r.links[n] == st1.links[n];
      } else {
        assert titles[1..][k - 1] == titles[k];
        assert titles[k] in titles;
        assert r.links[|st1.links| + (k - 1)].categoryId == FindCategory(st1.categories, titles[1..][k - 1], same).value;
      }
    }
  }

  /** A lookup that succeeds in a category table still returns the same
      category after more categories are appended. */
  lemma PrefixFind(cats: seq<string>, cats': seq<string>, titles: seq<string>, same: (string, string) -> bool)
    requires |cats| <= |cats'| && cats'[..|cats|] == cats
    ensures forall t :: t in titles && FindCategory(cats, t, same).Some? ==>
              FindCategory(cats', t, same) == FindCategory(cats, t, same)
  {
    forall t | t in titles && FindCategory(cats, t, same).Some?
      ensures FindCategory(cats', t, same) == FindCategory(cats, t, same)
    {
      FindPrefix(cats, cats', t, same, 0);
    }
  }

  /** The search from `i` finds the same category in an extended table. */
  lemma {:induction false} FindPrefix(cats: seq<string>, cats': seq<string>, t: string, same: (string, string) -> bool, i: nat)
    requires |cats| <= |cats'| && cats'[..|cats|] == cats
    requires i <= |cats|
    requires FindFrom(cats, t, same, i).Some?
    ensures FindFrom(cats', t, same, i) == FindFrom(cats, t, same, i)
    decreases |cats| - i
  {
    assert cats'[i] == cats[i];
    if !same(cats[i], t) {
      FindPrefix(cats, cats', t, same, i + 1);
    }
  }

  /** The junction rows that survive deleting every row of `article`. */
  function DropLinksOf(links: seq<Link>, article: ArticleId): (r: seq<Link>)
    ensures forall l :: l in r <==> l in links && l.articleId != article
    ensures forall l :: multiset(r)[l] == if l.articleId == article then 0 else multiset(links)[l]
    ensures |r| <= |links|
  {
    if links == [] then []
    else
      assert links == [links[0]] + links[1..];
      (if links[0].articleId == article then [] else [links[0]]) + DropLinksOf(links[1..], article)
  }

  /** Dropping the rows of an article that has none keeps the rows as they
      are. */
  lemma {:induction false} DropNothing(links: seq<Link>, article: ArticleId)
    requires forall i :: 0 <= i < |links| ==> links[i].articleId != article
    ensures DropLinksOf(links, article) == links
  {
    if links != [] {
      DropNothing(links[1..], article);
      assert links == [links[0]] + links[1..];
    }
  }
}

=== FILE: engagement.dfy ===
/** The like and bookmark toggles. Both relations are sets of
    (user, article) pairs; a toggle removes the caller's pair when it is
    present and adds it otherwise, and answers with the matching message. */
module Engagement {
  import opened Outcomes
  import opened Store

  /** The messages the toggles answer with. */
  datatype Message = Like | DisLike | Bookmark | UnBookmark

  /** Flips the membership of one pair; `added` tells which way it went. */
  function Flip(rel: set<(UserId, ArticleId)>, pair: (UserId, ArticleId)): (r: (set<(UserId, ArticleId)>, bool))
    ensures r.1 <==> pair !in rel
    ensures pair in r.0 <==> pair !in rel
    ensures forall q :: q != pair ==> (q in r.0 <==> q in rel)
  {
    if pair in rel then (rel - {pair}, false) else (rel + {pair}, true)
  }

  /** `likeToggle`: NotFound for an unknown article; otherwise the user's
      like on it is withdrawn (DisLike) or recorded (Like). */
  function LikeToggle(st: Store, user: UserId, article: ArticleId): (r: (Result<Message>, Store))
    ensures article !in st.articles ==> r == (Err(NotFound), st)
    ensures article in st.articles ==>
              && r.0.Ok?
              && (r.0.value == DisLike <==> (user, article) in st.likes)
              && (r.0.value == Like <==> (user, article) !in st.likes)
              && ((user, article) in r.1.likes <==> (user, article) !in st.likes)
              && (forall q :: q != (user, article) ==> (q in r.1.likes <==> q in st.likes))
              && r.1 == st.(likes := r.1.likes)
  {
    match CheckExist(st, article)
    case Err(e) => (Err(e), st)
    case Ok(_) =>
      var (likes, added) := Flip(st.likes, (user, article));
      (Ok(if added then Like else DisLike), st.(likes := likes))
  }

  /** `bookmarkToggle`: the same protocol over bookmarks, answering
      Bookmark or UnBookmark. */
  function BookmarkToggle(st: Store, user: UserId, article: ArticleId): (r: (Result<Message>, Store))
    ensures article !in st.articles ==> r == (Err(NotFound), st)
    ensures article in st.articles ==>
              && r.0.Ok?
              && (r.0.value == UnBookmark <==> (user, article) in st.bookmarks)
              && (r.0.value == Bookmark <==> (user, article) !in st.bookmarks)
              && ((user, article) in r.1.bookmarks <==> (user, article) !in st.bookmarks)
              && (forall q :: q != (user, article) ==> (q in r.1.bookmarks <==> q in st.bookmarks))
              && r.1 == st.(bookmarks := r.1.bookmarks)
  {
    match CheckExist(st, article)
    case Err(e) => (Err(e), st)
    case Ok(_) =>
      var (bookmarks, added) := Flip(st.bookmarks, (user, article));
      (Ok(if added then Bookmark else UnBookmark), st.(bookmarks := bookmarks))
  }

  /** Liking twice restores the store, and the two answers are opposite. */
  lemma LikeTwice(st: Store, user: UserId, article: ArticleId)
    requires article in st.articles
    ensures var (m1, st1) := LikeToggle(st, user, article);
            var (m2, st2) := LikeToggle(st1, user, article);
            && st2 == st
            && {m1.value, m2.value} == {Like, DisLike}
  {
    var st1 := LikeToggle(st, user, article).1;
    var st2 := LikeToggle(st1, user, article).1;
    assert st2.likes == st.likes;
  }

  /** Bookmarking twice restores the store, and the two answers are
      opposite. */
  lemma BookmarkTwice(st: Store, user: UserId, article: ArticleId)
    requires article in st.articles
    ensures var (m1, st1) := BookmarkToggle(st, user, article);
            var (m2, st2) := BookmarkToggle(st1, user, article);
            && st2 == st
            && {m1.value, m2.value} == {Bookmark, UnBookmark}
  {
    var st1 := BookmarkToggle(st, user, article).1;
    var st2 := BookmarkToggle(st1, user, article).1;
    assert st2.bookmarks == st.bookmarks;
  }

  /** After a like toggle, the detail flag of the article is the answer:
      liked exactly when the toggle said Like. */
  lemma LikeAnswerIsState(st: Store, user: UserId, article: ArticleId)
    requires article in st.articles
    ensures var (m, st1) := LikeToggle(st, user, article);
            (user, article) in st1.likes <==> m == Ok(Like)
  {
  }

  /** The number of likes an article has, as the list and detail counts
      report it. */
  function LikeCount(likes: set<(UserId, ArticleId)>, article: ArticleId): nat {
    |set q | q in likes && q.1 == article|
  }

  /** A like toggle moves the article's like count by exactly one and no
      other article's count. */
  lemma LikeCountStep(st: Store, user: UserId, article: ArticleId, other: ArticleId)
    requires article in st.articles
    ensures var (m, st1) := LikeToggle(st, user, article);
            && (m == Ok(Like) ==> LikeCount(st1.likes, article) == LikeCount(st.likes, article) + 1)
            && (m == Ok(DisLike) ==> LikeCount(st1.likes, article) + 1 == LikeCount(st.likes, article))
            && (other != article ==> LikeCount(st1.likes, other) == LikeCount(st.likes, other))
  {
    var (m, st1) := LikeToggle(st, user, article);
    var before := set q | q in st.likes && q.1 == article;
    var after := set q | q in st1.likes && q.1 == article;
    if (user, article) in st.likes {
      assert after == before - {(user, article)};
    } else {
      assert after == before + {(user, article)};
    }
    if other != article {
      assert (set q | q in st1.likes && q.1 == other) == (set q | q in st.likes && q.1 == other);
    }
  }
}

=== FILE: intsets.dfy ===
/** Least and greatest elements of finite sets of ids, used where the store
    picks "the first" row and where results are ordered by id. */
module IntSets {

  /** A non-empty set has an element. */
  lemma Pick(s: set<int>)
    requires s != {}
    ensures exists y :: y in s
  {
    assert (forall y :: y !in s) ==> s == {};
  }

  /** Every non-empty finite set of integers has a least element. */
  lemma {:induction false} HasMin(s: set<int>)
    requires s != {}
    ensures exists m :: m in s && forall x :: x in s ==> m <= x
    decreases |s|
  {
    Pick(s);
    var y :| y in s;
    if s != {y} {
      HasMin(s - {y});
      var m :| m in s - {y} && forall x :: x in s - {y} ==> m <= x;
      var r := if y < m then y else m;
      forall x | x in s
        ensures r <= x
      {
        if x != y {
          assert x in s - {y};
        }
      }
    } else {
      assert forall x :: x in s ==> y <= x;
    }
  }

  /** Every non-empty finite set of integers has a greatest element. */
  lemma {:induction false} HasMax(s: set<int>)
    requires s != {}
    ensures exists m :: m in s && forall x :: x in s ==> x <= m
    decreases |s|
  {
    Pick(s);
    var y :| y in s;
    if s != {y} {
      HasMax(s - {y});
      var m :| m in s - {y} && forall x :: x in s - {y} ==> x <= m;
      var r := if m < y then y else m;
      forall x | x in s
        ensures x <= r
      {
        if x != y {
          assert x in s - {y};
        }
      }
    } else {
      assert forall x :: x in s ==> x <= y;
    }
  }

  /** The least element of a non-empty set. */
  function Min(s: set<int>): (m: int)
    requires s != {}
    ensures m in s && forall x :: x in s ==> m <= x
  {
    HasMin(s);
    var m :| m in s && forall x :: x in s ==> m <= x; m
  }

  /** The greatest element of a non-empty set. */
  function Max(s: set<int>): (m: int)
    requires s != {}
    ensures m in s && forall x :: x in s ==> x <= m
  {
    HasMax(s);
    var m :| m in s && forall x :: x in s ==> x <= m; m
  }
}

=== FILE: like.dfy ===
/** The PostgreSQL `LIKE`/`ILIKE` matching the list search relies on, the
    search pattern the service builds, and an escaped variant of it. */
module Like {
  import Text

  /** `LIKE` with the default escape character `\`: `%` matches any run of
      characters, `_` any one character, `\` makes the next pattern
      character literal, and every other character matches itself. */
  predicate Matches(p: string, t: string)
    decreases |p| + |t|
  {
    if p == [] then t == []
    else if p[0] == '%' then Matches(p[1..], t) || (t != [] && Matches(p, t[1..]))
    else if p[0] == '_' then t != [] && Matches(p[1..], t[1..])
    else if p[0] == '\\' && |p| >= 2 then t != [] && t[0] == p[1] && Matches(p[2..], t[1..])
    else t != [] && t[0] == p[0] && Matches(p[1..], t[1..])
  }

  /** `ILIKE`: `LIKE` after case folding both sides. A pattern without
      wildcards or escapes matches exactly the texts equal to it up to
      case. */
  predicate ILike(p: string, t: string): (r: bool)
    ensures Plain(p) ==> (r <==> Text.Lower(t) == Text.Lower(p))
  {
    LowerPlain(p);
    PlainMatches(Text.Lower(p), Text.Lower(t));
    Matches(Text.Lower(p), Text.Lower(t))
  }

  /** The characters `LIKE` gives a meaning to. */
  predicate IsWild(c: char) {
    c == '%' || c == '_' || c == '\\'
  }

  /** A string with no character `LIKE` gives a meaning to. */
  predicate Plain(w: string) {
    forall i :: 0 <= i < |w| ==> !IsWild(w[i])
  }

  /** Case folding neither creates nor removes a wildcard. */
  lemma LowerPlain(w: string)
    ensures Plain(w) ==> Plain(Text.Lower(w))
  {
  }

  /** A plain pattern matches exactly itself. */
  lemma PlainMatches(w: string, t: string)
    ensures Plain(w) ==> (Matches(w, t) <==> t == w)
  {
    if Plain(w) {
      EscapedPrefix(w, "", t);
      assert Escape(w) + "" == w;
      if Matches(w, t) {
        assert t[|w|..] == [];
        assert t == t[..|w|];
      }
      if t == w {
        assert t[..|w|] == w && t[|w|..] == [];
      }
    }
  }

  /** The pattern the list search binds: the raw term between two `%`. */
  function SearchPattern(term: string): (p: string)
    ensures |p| == |term| + 2
    ensures p[0] == '%' && p[|p| - 1] == '%' && p[1..|p| - 1] == term
  {
    "%" + term + "%"
  }

  /** The term with a `\` put before each wildcard and escape character. */
  function Escape(w: string): (r: string)
    ensures |r| >= |w|
    ensures Plain(w) ==> r == w
  {
    if w == [] then []
    else EscapeChar(w[0]) + Escape(w[1..])
  }

  /** One character, escaped when it is a wildcard or the escape. */
  function EscapeChar(c: char): (r: string)
    ensures |r| >= 1 && r[|r| - 1] == c
    ensures IsWild(c) <==> r == ['\\', c]
    ensures !IsWild(c) <==> r == [c]
  {
    if IsWild(c) then ['\\', c] else [c]
  }

  /** The search pattern with the term escaped, so that the term only
      matches itself. */
  function EscapedPattern(term: string): (p: string)
    ensures Plain(term) ==> p == SearchPattern(term)
  {
    "%" + Escape(term) + "%"
  }

  /** A lone `%` matches every text. */
  lemma {:induction false} PercentMatchesAll(t: string)
    ensures Matches("%", t)
    decreases |t|
  {
    if t != [] {
      PercentMatchesAll(t[1..]);
    }
  }

  /** A leading `%` means "somewhere in the text". */
  lemma {:induction false} LeadingPercent(q: string, t: string)
    ensures Matches("%" + q, t) <==> exists k :: 0 <= k <= |t| && Matches(q, t[k..])
    decreases |t|
  {
    var p := "%" + q;
    assert p[1..] == q;
    assert t[0..] == t;
    if t == [] {
      assert Matches(p, t) <==> Matches(q, t);
    } else {
      LeadingPercent(q, t[1..]);
      assert Matches(p, t) <==> Matches(q, t) || Matches(p, t[1..]);
      if Matches(p, t[1..]) {
        var k :| 0 <= k <= |t[1..]| && Matches(q, t[1..][k..]);
        assert t[1..][k..] == t[k + 1..];
      }
      if k :| 0 <= k <= |t| && Matches(q, t[k..]) {
        if k > 0 {
          assert t[1..][k - 1..] == t[k..];
        }
      }
    }
  }

  /** An escaped term at the head of a pattern matches exactly itself. */
  lemma {:induction false} EscapedPrefix(w: string, rest: string, t: string)
    ensures Matches(Escape(w) + rest, t) <==> Text.IsPrefix(w, t) && Matches(rest, t[|w|..])
    decreases |w|
  {
    if w == [] {
      assert Escape(w) + rest == rest;
      assert t[..0] == w && t[0..] == t;
    } else {
      var q := Escape(w[1..]) + rest;
      assert Escape(w) + rest == EscapeChar(w[0]) + q;
      EscapedHead(w[0], q, t);
      if t == [] {
        assert !Text.IsPrefix(w, t);
      } else {
        EscapedPrefix(w[1..], rest, t[1..]);
        PrefixStep(w, t);
      }
    }
  }

  /** An escaped character at the head of a pattern matches itself only. */
  lemma EscapedHead(c: char, q: string, t: string)
    ensures Matches(EscapeChar(c) + q, t) <==> t != [] && t[0] == c && Matches(q, t[1..])
  {
    if IsWild(c) {
      EscapedChar(c, q, t);
    } else {
      PlainChar(c, q, t);
    }
  }

  /** An escaped character matches itself only. */
  lemma EscapedChar(c: char, q: string, t: string)
    ensures Matches(['\\', c] + q, t) <==> t != [] && t[0] == c && Matches(q, t[1..])
  {
    var p := ['\\', c] + q;
    assert p[0] == '\\' && p[1] == c && p[2..] == q;
  }

  /** A character without a meaning to `LIKE` matches itself only. */
  lemma PlainChar(c: char, q: string, t: string)
    requires !IsWild(c)
    ensures Matches([c] + q, t) <==> t != [] && t[0] == c && Matches(q, t[1..])
  {
    var p := [c] + q;
    assert p[0] == c && p[1..] == q;
  }

  /** A prefix test, one character at a time. */
  lemma PrefixStep(w: string, t: string)
    requires w != [] && t != []
    ensures Text.IsPrefix(w, t) <==> t[0] == w[0] && Text.IsPrefix(w[1..], t[1..])
    ensures |w| <= |t| ==> t[1..][|w| - 1..] == t[|w|..]
  {
    if |w| <= |t| {
      assert t[..|w|] == [t[0]] + t[1..][..|w| - 1];
      assert w == [w[0]] + w[1..];
    }
  }

  /** Case folding leaves the wildcard characters alone and so commutes
      with escaping. */
  lemma {:induction false} LowerEscape(w: string)
    ensures Text.Lower(Escape(w)) == Escape(Text.Lower(w))
    decreases |w|
  {
    if w != [] {
      var head := EscapeChar(w[0]);
      LowerEscape(w[1..]);
      Text.LowerConcat(head, Escape(w[1..]));
      var lw := Text.Lower(w);
      assert lw[0] == Text.LowerChar(w[0]);
      assert lw[1..] == Text.Lower(w[1..]);
      assert Text.Lower(head) == EscapeChar(lw[0]);
    }
  }

  /** Case folding the escaped pattern escapes the case-folded term. */
  lemma LowerPattern(term: string)
    ensures Text.Lower(EscapedPattern(term)) == "%" + (Escape(Text.Lower(term)) + "%")
  {
    Text.LowerConcat("%" + Escape(term), "%");
    Text.LowerConcat("%", Escape(term));
    LowerEscape(term);
    assert Text.Lower("%") == "%";
  }

  /** `%`, an escaped term, `%`: the text contains the term. */
  lemma SurroundedTerm(w: string, t: string)
    ensures Matches("%" + (Escape(w) + "%"), t) <==> Text.Contains(t, w)
  {
    LeadingPercent(Escape(w) + "%", t);
    forall k | 0 <= k <= |t|
      ensures Matches(Escape(w) + "%", t[k..]) <==> Text.IsPrefix(w, t[k..])
    {
      EscapedPrefix(w, "%", t[k..]);
      if Text.IsPrefix(w, t[k..]) {
        PercentMatchesAll(t[k..][|w|..]);
      }
    }
  }

  /** The escaped search finds exactly the texts that contain the term,
      ignoring ASCII case. */
  lemma EscapedSearchFinds(term: string, text: string)
    ensures ILike(EscapedPattern(term), text) <==> Text.Contains(Text.Lower(text), Text.Lower(term))
  {
    LowerPattern(term);
    SurroundedTerm(Text.Lower(term), Text.Lower(text));
  }

  /** For a term without wildcards or escapes the pattern the service
      builds is already exact: it matches the texts containing the term,
      ignoring ASCII case. */
  lemma PlainSearchFinds(term: string, text: string)
    ensures Plain(term) ==> (ILike(SearchPattern(term), text) <==> Text.Contains(Text.Lower(text), Text.Lower(term)))
  {
    if Plain(term) {
      assert EscapedPattern(term) == SearchPattern(term);
      EscapedSearchFinds(term, text);
    }
  }

  /** The pattern as the service builds it lets `_` through as a wildcard:
      searching for "_" finds "a", which contains no underscore. */
  lemma UnderscoreMatchesAnything()
    ensures ILike(SearchPattern("_"), "a")
    ensures !Text.Contains(Text.Lower("a"), Text.Lower("_"))
  {
    var p := SearchPattern("_");
    assert Text.Lower(p) == "%_%";
    assert Text.Lower("a") == "a";
    assert Text.Lower("_") == "_";
    assert Matches("%", "");
    assert Matches("_%", "a");
    assert Matches("%_%", "a");
    assert !Text.IsPrefix("_", "a"[0..]);
    assert !Text.IsPrefix("_", "a"[1..]);
  }
}

=== FILE: outcomes.dfy ===
/** Optional values, the service's error kinds, and the Ok/Err result every
    store operation returns in place of throwing an HTTP exception. */
module Outcomes {

  /** A value that may be absent (`undefined`/`null` in the service). */
  datatype Option<+T> = None | Some(value: T) {

    /** The value, or `default` when absent (the `??` operator). */
    function GetOr(default: T): T {
      match this
      case Some(v) => v
      case None => default
    }
  }

  /** The exceptions the blog service raises: NotFoundException and
      BadRequestException, and `Refused` for a statement the database
      rejects (a foreign-key violation), which reaches the client as an
      internal error. */
  datatype Error = NotFound | BadRequest | Refused

  /** Either a successful outcome or the exception the service throws. */
  datatype Result<+T> = Ok(value: T) | Err(error: Error)

  /** JavaScript truthiness of an optional string: present and non-empty. */
  predicate Truthy(o: Option<string>) {
    o.Some? && o.value != ""
  }

  /** JavaScript truthiness of an optional number: present and non-zero. */
  predicate TruthyNumber(o: Option<int>) {
    o.Some? && o.value != 0
  }
}

=== FILE: role_guard.dfy ===
/** The route guard that compares the roles a handler requires with the
    role of the authenticated user. The required roles are read by framework
    reflection from the handler's metadata only (the class is handed over as
    the uncalled `getClass` method, so class-level roles are never found);
    here they are an input. */
module RoleGuard {
  import opened Outcomes

  /** The role enumeration: the two members the guard names, and any other. */
  datatype Role = Admin | User | OtherRole(name: string)

  /** The authenticated user attached to the request; the role may be unset. */
  datatype Principal = Principal(role: Option<Role>)

  /** Allow, the ForbiddenException, or the TypeError raised when the guard
      reads `user.role` while no user is attached. */
  datatype Decision = Allow | Forbidden | Crash

  /** The role the guard checks: the user's role, `User` when unset. */
  function EffectiveRole(user: Option<Principal>): Role {
    if user.Some? then user.value.role.GetOr(User) else User
  }

  /** Reference reading of the access rule for a present user and a
      non-empty requirement: administrators pass, others need their
      effective role among the required ones. */
  predicate Permits(required: seq<Role>, user: Principal) {
    user.role == Some(Admin) || user.role.GetOr(User) in required
  }

  /** The guard's decision. */
  function CanActivate(required: Option<seq<Role>>, user: Option<Principal>): (d: Decision)
    ensures required.None? || required.value == [] ==> d == Allow
    ensures required.Some? && required.value != [] && user.None? ==> d == Crash
    ensures required.Some? && required.value != [] && user.Some? ==>
              d != Crash && (d == Allow <==> Permits(required.value, user.value))
  {
    if required.None? || |required.value| == 0 then Allow
    else
      var role := EffectiveRole(user);
      if user.None? then Crash
      else if user.value.role == Some(Admin) then Allow
      else if role in required.value then Allow
      else Forbidden
  }

  /** An administrator passes every guard that does not crash. */
  lemma AdminOverride(required: Option<seq<Role>>)
    ensures CanActivate(required, Some(Principal(Some(Admin)))) == Allow
  {
  }

  /** A user without a role is judged exactly as a `User`. */
  lemma DefaultRole(required: seq<Role>)
    requires required != []
    ensures CanActivate(Some(required), Some(Principal(None))) == Allow <==> User in required
    ensures CanActivate(Some(required), Some(Principal(None))) ==
            CanActivate(Some(required), Some(Principal(Some(User))))
  {
  }

  /** Widening a non-empty requirement never revokes access. */
  lemma Monotone(r1: seq<Role>, r2: seq<Role>, user: Option<Principal>)
    requires r1 != []
    requires forall x :: x in r1 ==> x in r2
    requires CanActivate(Some(r1), user) == Allow
    ensures CanActivate(Some(r2), user) == Allow
  {
    assert r1[0] in r2;
  }

  /** A present user who is neither an administrator nor holds a required
      role is refused with Forbidden, never with a silent deny. */
  lemma ForbiddenOtherwise(required: seq<Role>, user: Principal)
    requires required != []
    requires user.role != Some(Admin) && user.role.GetOr(User) !in required
    ensures CanActivate(Some(required), Some(user)) == Forbidden
  {
  }
}

=== FILE: slug.dfy ===
/** Slug normalisation as the blog service performs it: one regular
    expression deletes every character of a fixed set, a second replaces
    each run of whitespace by a single `-`. No lower-casing, no
    transliteration. */
module Slug {

  /** The Arabic harakat U+064B (fathatan) through U+0651 (shadda). */
  predicate IsHaraka(c: char) {
    '\U{064B}' <= c <= '\U{0651}'
  }

  /** The ASCII members of the deleted set; `,` is not among them, `-` is. */
  const StrippedAscii: set<char> :=
    {'.', '+', '-', '_', ')', '(', '*', '&', '%', '$', '^', '#', '@', '!', '~', '\'', '"', ';', ':', '?', '>', '<', '`'}

  /** Characters the first replacement deletes: the harakat, hamza U+0621,
      and the ASCII punctuation above. */
  predicate IsStripped(c: char) {
    IsHaraka(c) || c == '\U{0621}' || c in StrippedAscii
  }

  /** The ECMAScript `\s` class: tab, line feed, vertical tab, form feed,
      carriage return, the Unicode space separators, the line and paragraph
      separators, and the byte-order mark. */
  predicate IsSpace(c: char) {
    || c == '\t' || c == '\n' || c == '\U{000B}' || c == '\U{000C}' || c == '\r'
    || c == ' ' || c == '\U{00A0}' || c == '\U{1680}'
    || ('\U{2000}' <= c <= '\U{200A}')
    || c == '\U{2028}' || c == '\U{2029}' || c == '\U{202F}' || c == '\U{205F}'
    || c == '\U{3000}' || c == '\U{FEFF}'
  }

  /** The first replacement: delete every character of the stripped set,
      keeping the others in order. */
  function Strip(s: string): string {
    if s == [] then []
    else (if IsStripped(s[0]) then [] else [s[0]]) + Strip(s[1..])
  }

  /** Skips the leading whitespace of `s`. */
  function DropSpaces(s: string): (r: string)
    ensures |r| <= |s|
  {
    if s != [] && IsSpace(s[0]) then DropSpaces(s[1..]) else s
  }

  /** The second replacement: every maximal run of whitespace becomes one `-`. */
  function Collapse(s: string): string
    decreases |s|
  {
    if s == [] then []
    else if IsSpace(s[0]) then "-" + Collapse(DropSpaces(s[1..]))
    else [s[0]] + Collapse(s[1..])
  }

  /** The slug the service derives from a title or an explicit slug. It
      holds no whitespace, and it is empty exactly when every character of
      the source is a deleted one. */
  function Normalize(s: string): (r: string)
    ensures forall i :: 0 <= i < |r| ==> !IsSpace(r[i])
    ensures r == [] <==> forall i :: 0 <= i < |s| ==> IsStripped(s[i])
  {
    StripClean(s);
    StripEmpty(s);
    CollapseNoSpace(Strip(s));
    CollapseHead(Strip(s));
    Collapse(Strip(s))
  }

  /** Skipping leading whitespace stops at a non-whitespace character, and
      what is left is a suffix of the input. */
  lemma {:induction false} DropSpacesStops(s: string)
    ensures DropSpaces(s) == [] || !IsSpace(DropSpaces(s)[0])
    ensures DropSpaces(s) == s[|s| - |DropSpaces(s)|..]
    decreases |s|
  {
    if s != [] && IsSpace(s[0]) {
      DropSpacesStops(s[1..]);
    }
  }

  /** Collapsing keeps emptiness and maps a leading whitespace run to a
      leading hyphen and any other first character to itself. */
  lemma CollapseHead(s: string)
    ensures Collapse(s) == [] <==> s == []
    ensures s != [] && IsSpace(s[0]) ==> Collapse(s)[0] == '-'
    ensures s != [] && !IsSpace(s[0]) ==> Collapse(s)[0] == s[0]
  {
  }

  /** Stripping leaves no deleted character. */
  lemma {:induction false} StripClean(s: string)
    ensures forall i :: 0 <= i < |Strip(s)| ==> !IsStripped(Strip(s)[i])
    decreases |s|
  {
    if s != [] {
      StripClean(s[1..]);
    }
  }

  /** Stripping leaves nothing exactly when every character is a deleted one. */
  lemma {:induction false} StripEmpty(s: string)
    ensures Strip(s) == [] <==> forall i :: 0 <= i < |s| ==> IsStripped(s[i])
    decreases |s|
  {
    if s != [] {
      StripEmpty(s[1..]);
      assert forall i :: 1 <= i < |s| ==> s[i] == s[1..][i - 1];
    }
  }

  /** Collapsing leaves no whitespace. */
  lemma {:induction false} CollapseNoSpace(s: string)
    ensures forall i :: 0 <= i < |Collapse(s)| ==> !IsSpace(Collapse(s)[i])
    decreases |s|
  {
    if s != [] {
      if IsSpace(s[0]) {
        CollapseNoSpace(DropSpaces(s[1..]));
      } else {
        CollapseNoSpace(s[1..]);
      }
    }
  }

  // ---------------------------------------------------------------------
  // Reference views of a string, used to state what normalisation keeps.

  /** The characters of `s` that are neither deleted nor whitespace, in order. */
  function Keep(s: string): (r: string)
    ensures forall c :: c in r ==> c in s && !IsStripped(c) && !IsSpace(c)
  {
    if s == [] then []
    else (if IsStripped(s[0]) || IsSpace(s[0]) then [] else [s[0]]) + Keep(s[1..])
  }

  /** `s` without its whitespace. */
  function NonSpace(s: string): string {
    if s == [] then [] else (if IsSpace(s[0]) then [] else [s[0]]) + NonSpace(s[1..])
  }

  /** `s` without its hyphens. */
  function DropHyphens(s: string): string {
    if s == [] then [] else (if s[0] == '-' then [] else [s[0]]) + DropHyphens(s[1..])
  }

  /** The number of hyphens in `s`. */
  function HyphenCount(s: string): nat {
    if s == [] then 0 else (if s[0] == '-' then 1 else 0) + HyphenCount(s[1..])
  }

  /** The number of maximal whitespace runs in `s`, scanning left to right;
      `afterSpace` says whether the character before `s` was whitespace. */
  function SpaceRuns(s: string, afterSpace: bool): nat {
    if s == [] then 0
    else if IsSpace(s[0]) then (if afterSpace then 0 else 1) + SpaceRuns(s[1..], true)
    else SpaceRuns(s[1..], false)
  }

  /** No two hyphens stand next to each other. */
  predicate NoDoubleHyphen(s: string) {
    forall i :: 0 <= i < |s| - 1 ==> !(s[i] == '-' && s[i + 1] == '-')
  }

  // ---------------------------------------------------------------------
  // Properties of normalisation.

  /** A normalised slug holds no deleted character except the hyphens that
      replaced whitespace, and never two hyphens in a row. */
  lemma NormalizeShape(s: string)
    ensures forall i :: 0 <= i < |Normalize(s)| ==> Normalize(s)[i] == '-' || !IsStripped(Normalize(s)[i])
    ensures NoDoubleHyphen(Normalize(s))
  {
    var t := Strip(s);
    StripClean(s);
    assert IsStripped('-');
    CollapseNoDoubleHyphen(t);
    CollapseKeepsClean(t);
  }

  /** Collapsing a string free of deleted characters adds only hyphens. */
  lemma {:induction false} CollapseKeepsClean(t: string)
    requires forall i :: 0 <= i < |t| ==> !IsStripped(t[i])
    ensures forall i :: 0 <= i < |Collapse(t)| ==> Collapse(t)[i] == '-' || !IsStripped(Collapse(t)[i])
    decreases |t|
  {
    if t != [] {
      if IsSpace(t[0]) {
        var u := DropSpaces(t[1..]);
        DropSpacesStops(t[1..]);
        assert forall i :: 0 <= i < |u| ==> u[i] == t[|t| - |u| + i];
        CollapseKeepsClean(u);
        assert Collapse(t) == "-" + Collapse(u);
      } else {
        CollapseKeepsClean(t[1..]);
        assert Collapse(t) == [t[0]] + Collapse(t[1..]);
      }
    }
  }

  /** Collapsing a hyphen-free string never puts two hyphens side by side. */
  lemma {:induction false} CollapseNoDoubleHyphen(t: string)
    requires forall i :: 0 <= i < |t| ==> t[i] != '-'
    ensures NoDoubleHyphen(Collapse(t))
    decreases |t|
  {
    if t != [] {
      if IsSpace(t[0]) {
        var u := DropSpaces(t[1..]);
        DropSpacesStops(t[1..]);
        CollapseNoDoubleHyphen(u);
        var r := Collapse(u);
        assert Collapse(t) == "-" + r;
        CollapseHead(u);
        if u != [] {
          assert u[0] == t[1..][|t| - 1 - |u|];
          assert r[0] == u[0] && r[0] != '-';
        }
      } else {
        CollapseNoDoubleHyphen(t[1..]);
        var r := Collapse(t[1..]);
        assert Collapse(t) == [t[0]] + r;
      }
    }
  }

  /** Every character that is neither deleted nor whitespace survives
      normalisation, in order, case and commas included: dropping the
      hyphens of the slug gives exactly those characters. */
  lemma NormalizeKeepsContent(s: string)
    ensures DropHyphens(Normalize(s)) == Keep(s)
  {
    var t := Strip(s);
    CollapseContent(t);
    NonSpaceStrip(s);
    assert IsStripped('-');
    assert '-' !in Keep(s);
    NoHyphenFixed(Keep(s));
  }

  /** Collapsing keeps the non-whitespace characters in order. */
  lemma {:induction false} CollapseContent(t: string)
    ensures DropHyphens(Collapse(t)) == DropHyphens(NonSpace(t))
    decreases |t|
  {
    if t != [] {
      if IsSpace(t[0]) {
        var u := DropSpaces(t[1..]);
        CollapseContent(u);
        DropSpacesNonSpace(t[1..]);
        assert Collapse(t) == "-" + Collapse(u);
        DropHyphensConcat("-", Collapse(u));
        assert DropHyphens("-") == [];
        assert NonSpace(t) == NonSpace(t[1..]);
      } else {
        CollapseContent(t[1..]);
        DropHyphensConcat([t[0]], Collapse(t[1..]));
        DropHyphensConcat([t[0]], NonSpace(t[1..]));
      }
    }
  }

  /** Skipping leading whitespace changes neither the non-whitespace
      characters, nor the hyphen count, nor the run count. */
  lemma {:induction false} DropSpacesNonSpace(t: string)
    ensures NonSpace(DropSpaces(t)) == NonSpace(t)
    ensures HyphenCount(DropSpaces(t)) == HyphenCount(t)
    ensures SpaceRuns(DropSpaces(t), false) == SpaceRuns(t, true)
    decreases |t|
  {
    if t != [] && IsSpace(t[0]) {
      DropSpacesNonSpace(t[1..]);
      assert t[0] != '-';
    }
  }

  /** Hyphen removal distributes over concatenation. */
  lemma {:induction false} DropHyphensConcat(a: string, b: string)
    ensures DropHyphens(a + b) == DropHyphens(a) + DropHyphens(b)
    decreases |a|
  {
    if a != [] {
      DropHyphensConcat(a[1..], b);
      assert (a + b)[1..] == a[1..] + b;
      assert (a + b)[0] == a[0];
    } else {
      assert a + b == b;
    }
  }

  /** Removing whitespace after stripping is the same as keeping the
      characters that are neither deleted nor whitespace. */
  lemma {:induction false} NonSpaceStrip(s: string)
    ensures NonSpace(Strip(s)) == Keep(s)
    decreases |s|
  {
    if s != [] {
      NonSpaceStrip(s[1..]);
      var head: string := if IsStripped(s[0]) then [] else [s[0]];
      NonSpaceConcat(head, Strip(s[1..]));
    }
  }

  /** Whitespace removal distributes over concatenation. */
  lemma {:induction false} NonSpaceConcat(a: string, b: string)
    ensures NonSpace(a + b) == NonSpace(a) + NonSpace(b)
    decreases |a|
  {
    if a != [] {
      NonSpaceConcat(a[1..], b);
      assert (a + b)[1..] == a[1..] + b;
      assert (a + b)[0] == a[0];
    } else {
      assert a + b == b;
    }
  }

  /** Hyphen removal leaves a string with no hyphen unchanged. */
  lemma {:induction false} NoHyphenFixed(s: string)
    requires '-' !in s
    ensures DropHyphens(s) == s
    decreases |s|
  {
    if s != [] {
      NoHyphenFixed(s[1..]);
      assert s == [s[0]] + s[1..];
    }
  }

  /** The hyphens of a slug are exactly the collapsed whitespace runs of the
      stripped input: one hyphen per run. */
  lemma NormalizeHyphens(s: string)
    ensures HyphenCount(Normalize(s)) == SpaceRuns(Strip(s), false)
  {
    CollapseHyphens(Strip(s));
    StripClean(s);
    assert IsStripped('-');
    NoHyphenCount(Strip(s));
  }

  /** Collapsing adds one hyphen per whitespace run. */
  lemma {:induction false} CollapseHyphens(t: string)
    ensures HyphenCount(Collapse(t)) == HyphenCount(t) + SpaceRuns(t, false)
    decreases |t|
  {
    if t != [] {
      if IsSpace(t[0]) {
        var u := DropSpaces(t[1..]);
        CollapseHyphens(u);
        DropSpacesNonSpace(t[1..]);
        assert Collapse(t) == "-" + Collapse(u);
        HyphenCountConcat("-", Collapse(u));
        assert t[0] != '-';
      } else {
        CollapseHyphens(t[1..]);
        HyphenCountConcat([t[0]], Collapse(t[1..]));
      }
    }
  }

  /** Hyphen count distributes over concatenation. */
  lemma {:induction false} HyphenCountConcat(a: string, b: string)
    ensures HyphenCount(a + b) == HyphenCount(a) + HyphenCount(b)
    decreases |a|
  {
    if a != [] {
      HyphenCountConcat(a[1..], b);
      assert (a + b)[1..] == a[1..] + b;
      assert (a + b)[0] == a[0];
    } else {
      assert a + b == b;
    }
  }

  /** A string without hyphens has hyphen count zero. */
  lemma {:induction false} NoHyphenCount(s: string)
    requires '-' !in s
    ensures HyphenCount(s) == 0
    decreases |s|
  {
    if s != [] {
      NoHyphenCount(s[1..]);
    }
  }

  /** `s` holds no deleted character (stated recursively). */
  predicate Clean(s: string) {
    s == [] || (!IsStripped(s[0]) && Clean(s[1..]))
  }

  /** `s` holds no whitespace (stated recursively). */
  predicate Spaceless(s: string) {
    s == [] || (!IsSpace(s[0]) && Spaceless(s[1..]))
  }

  /** A title made of two words, a comma and a space between them and a
      closing `!`, keeps the comma and the case: "Hello, World!" gives
      "Hello,-World", not "hello-world". */
  lemma TwoWordTitle(w1: string, w2: string)
    requires Clean(w1) && Clean(w2) && Spaceless(w1) && Spaceless(w2)
    ensures Normalize(w1 + ", " + w2 + "!") == w1 + ",-" + w2
  {
    var x := w1 + ",";
    var t := x + " " + w2;
    TwoWordParts(w1, w2);
    assert Normalize(t + "!") == Normalize(t) by {
      ExclamationStripped();
      StrippedTail(t, "!");
    }
    assert Clean(x) && Spaceless(x) by {
      CommaKept();
      CleanConcat(w1, ",");
      SpacelessConcat(w1, ",");
    }
    SpacedSlug(x, w2);
  }

  /** How the title and the slug of `TwoWordTitle` split into parts. */
  lemma TwoWordParts(w1: string, w2: string)
    ensures w1 + ", " + w2 + "!" == ((w1 + ",") + " " + w2) + "!"
    ensures (w1 + ",") + "-" + w2 == w1 + ",-" + w2
  {
  }

  /** A comma is neither deleted nor whitespace. */
  lemma CommaKept()
    ensures Clean(",") && Spaceless(",")
  {
    assert !IsStripped(',') && !IsSpace(',');
    assert ","[1..] == [];
  }

  /** An exclamation mark is deleted. */
  lemma ExclamationStripped()
    ensures AllStripped("!")
  {
    assert IsStripped('!');
    assert "!"[1..] == [];
  }

  /** Deleted characters at the end of a title do not change its slug. */
  lemma StrippedTail(x: string, y: string)
    requires AllStripped(y)
    ensures Normalize(x + y) == Normalize(x)
  {
    StripConcat(x, y);
    StripAllStripped(y);
    assert Strip(x) + [] == Strip(x);
  }

  /** `s` consists of deleted characters only (stated recursively). */
  predicate AllStripped(s: string) {
    s == [] || (IsStripped(s[0]) && AllStripped(s[1..]))
  }

  /** The recursive predicates used for induction say the same as the
      quantified forms used elsewhere. */
  lemma {:induction false} RecursiveForms(s: string)
    ensures Clean(s) <==> forall i :: 0 <= i < |s| ==> !IsStripped(s[i])
    ensures Spaceless(s) <==> forall i :: 0 <= i < |s| ==> !IsSpace(s[i])
    ensures AllStripped(s) <==> forall i :: 0 <= i < |s| ==> IsStripped(s[i])
    decreases |s|
  {
    if s != [] {
      RecursiveForms(s[1..]);
      assert forall i :: 1 <= i < |s| ==> s[i] == s[1..][i - 1];
    }
  }

  /** Stripping a string of deleted characters leaves nothing. */
  lemma {:induction false} StripAllStripped(y: string)
    requires AllStripped(y)
    ensures Strip(y) == []
    decreases |y|
  {
    if y != [] {
      StripAllStripped(y[1..]);
    }
  }

  /** Concatenating two clean strings gives a clean string. */
  lemma {:induction false} CleanConcat(a: string, b: string)
    requires Clean(a) && Clean(b)
    ensures Clean(a + b)
    decreases |a|
  {
    if a != [] {
      CleanConcat(a[1..], b);
      assert (a + b)[1..] == a[1..] + b;
    } else {
      assert a + b == b;
    }
  }

  /** An explicit slug loses its own hyphens, so normalising twice is not
      normalising once: "a b" becomes "a-b", which becomes "ab". */
  lemma NotIdempotent()
    ensures Normalize("a b") == "a-b"
    ensures Normalize(Normalize("a b")) == "ab"
  {
    SpacedSlug("a", "b");
    assert "a" + " " + "b" == "a b";
    HyphenatedSlug("a", "b");
    assert "a" + "-" + "b" == "a-b";
  }

  /** Two words free of deleted characters and whitespace, joined by a
      hyphen, normalise to the two words glued together. */
  lemma HyphenatedSlug(a: string, b: string)
    requires Clean(a) && Clean(b) && Spaceless(a) && Spaceless(b)
    ensures Normalize(a + "-" + b) == a + b
  {
    StripHyphenJoin(a, b);
    SpacelessConcat(a, b);
    NoSpaceCollapse(a + b);
  }

  /** Two words free of deleted characters and whitespace, joined by a
      space, normalise to the two words joined by a hyphen. */
  lemma SpacedSlug(a: string, b: string)
    requires Clean(a) && Clean(b) && Spaceless(a) && Spaceless(b)
    ensures Normalize(a + " " + b) == a + "-" + b
  {
    StripSpaceJoin(a, b);
    CollapseSpaceJoin(a, b);
  }

  /** Stripping two clean words joined by a space changes nothing. */
  lemma StripSpaceJoin(a: string, b: string)
    requires Clean(a) && Clean(b)
    ensures Strip(a + " " + b) == a + " " + b
  {
    StripConcat(a + " ", b);
    StripConcat(a, " ");
    NoStripFixed(a);
    NoStripFixed(b);
    assert Strip(" ") == " ";
  }

  /** Collapsing two whitespace-free words joined by a space puts a hyphen
      between them. */
  lemma CollapseSpaceJoin(a: string, b: string)
    requires Spaceless(a) && Spaceless(b)
    ensures Collapse(a + " " + b) == a + "-" + b
  {
    assert a + " " + b == a + (" " + b);
    CollapseText(a, " " + b);
    LeadingSpace(b);
    NoSpaceCollapse(b);
    assert a + "-" + b == a + ("-" + b);
  }

  /** A single space before a whitespace-free word becomes a hyphen. */
  lemma LeadingSpace(b: string)
    requires Spaceless(b)
    ensures Collapse(" " + b) == "-" + Collapse(b)
  {
    assert (" " + b)[1..] == b;
    assert DropSpaces(b) == b;
  }

  /** Concatenating two whitespace-free strings gives a whitespace-free string. */
  lemma {:induction false} SpacelessConcat(a: string, b: string)
    requires Spaceless(a) && Spaceless(b)
    ensures Spaceless(a + b)
    decreases |a|
  {
    if a != [] {
      SpacelessConcat(a[1..], b);
      assert (a + b)[1..] == a[1..] + b;
    } else {
      assert a + b == b;
    }
  }

  /** Stripping two clean words joined by a hyphen glues the words together. */
  lemma StripHyphenJoin(a: string, b: string)
    requires Clean(a) && Clean(b)
    ensures Strip(a + "-" + b) == a + b
  {
    assert Strip(a + "-") == a by {
      StripConcat(a, "-");
      NoStripFixed(a);
      assert Strip("-") == [] by {
        assert IsStripped('-');
      }
      assert a + [] == a;
    }
    assert Strip(a + "-" + b) == a + b by {
      StripConcat(a + "-", b);
      NoStripFixed(b);
    }
  }

  /** Stripping distributes over concatenation. */
  lemma {:induction false} StripConcat(a: string, b: string)
    ensures Strip(a + b) == Strip(a) + Strip(b)
    decreases |a|
  {
    if a != [] {
      StripConcat(a[1..], b);
      assert (a + b)[1..] == a[1..] + b;
      assert (a + b)[0] == a[0];
    } else {
      assert a + b == b;
    }
  }

  /** Stripping leaves a string without deleted characters unchanged. */
  lemma {:induction false} NoStripFixed(s: string)
    requires Clean(s)
    ensures Strip(s) == s
    decreases |s|
  {
    if s != [] {
      NoStripFixed(s[1..]);
      assert s == [s[0]] + s[1..];
    }
  }

  /** Line 67 replaces each whitespace run in place: after a
      whitespace-free prefix, a maximal run becomes exactly one `-` and
      collapsing carries on with what follows the run. */
  lemma {:induction false} CollapseRun(a: string, w: string, b: string)
    requires Spaceless(a)
    requires w != [] && forall i :: 0 <= i < |w| ==> IsSpace(w[i])
    requires b == [] || !IsSpace(b[0])
    ensures Collapse(a + w + b) == a + "-" + Collapse(b)
  {
    var c := Collapse(b);
    assert Collapse(a + (w + b)) == a + Collapse(w + b) by { CollapseText(a, w + b); }
    assert Collapse(w + b) == "-" + c by { LeadingRun(w, b); }
    assert a + w + b == a + (w + b);
    assert a + ("-" + c) == a + "-" + c;
  }

  /** A leading whitespace run collapses to one `-`. */
  lemma {:induction false} LeadingRun(w: string, b: string)
    requires w != [] && forall i :: 0 <= i < |w| ==> IsSpace(w[i])
    requires b == [] || !IsSpace(b[0])
    ensures Collapse(w + b) == "-" + Collapse(b)
  {
    assert (w + b)[0] == w[0] && (w + b)[1..] == w[1..] + b;
    DropRun(w[1..], b);
  }

  /** Skipping whitespace from the start of a run stops exactly where the
      run ends. */
  lemma {:induction false} DropRun(w: string, b: string)
    requires forall i :: 0 <= i < |w| ==> IsSpace(w[i])
    requires b == [] || !IsSpace(b[0])
    ensures DropSpaces(w + b) == b
    decreases |w|
  {
    if w == [] {
      assert w + b == b;
    } else {
      assert (w + b)[0] == w[0] && (w + b)[1..] == w[1..] + b;
      DropRun(w[1..], b);
    }
  }

  /** A whitespace-free prefix passes through collapsing unchanged. */
  lemma {:induction false} CollapseText(a: string, b: string)
    requires Spaceless(a)
    ensures Collapse(a + b) == a + Collapse(b)
    decreases |a|
  {
    if a != [] {
      CollapseText(a[1..], b);
      assert (a + b)[1..] == a[1..] + b;
      assert (a + b)[0] == a[0];
      assert a == [a[0]] + a[1..];
    } else {
      assert a + b == b;
    }
  }

  /** Collapsing a string without whitespace changes nothing. */
  lemma {:induction false} NoSpaceCollapse(s: string)
    requires Spaceless(s)
    ensures Collapse(s) == s
    decreases |s|
  {
    if s != [] {
      NoSpaceCollapse(s[1..]);
      assert s == [s[0]] + s[1..];
    }
  }

  /** Normalising a slug again is harmless exactly when the first pass
      produced no hyphen, that is, when the stripped input held no whitespace. */
  lemma NormalizeTwice(s: string)
    ensures Normalize(Normalize(s)) == Normalize(s) <==> SpaceRuns(Strip(s), false) == 0
  {
    var r := Normalize(s);
    NormalizeShape(s);
    NormalizeHyphens(s);
    StripOnlyHyphens(r);
    NoSpaceStrip(r);
    NoSpaceCollapse(DropHyphens(r));
    assert Normalize(r) == DropHyphens(r);
    DropHyphensCount(r);
    if HyphenCount(r) == 0 {
      ZeroHyphensFixed(r);
    }
  }

  /** A string with hyphen count zero is left alone by hyphen removal. */
  lemma {:induction false} ZeroHyphensFixed(r: string)
    requires HyphenCount(r) == 0
    ensures DropHyphens(r) == r
    decreases |r|
  {
    if r != [] {
      ZeroHyphensFixed(r[1..]);
      assert r == [r[0]] + r[1..];
    }
  }

  /** In a string whose only deleted characters are hyphens, stripping is
      hyphen removal. */
  lemma {:induction false} StripOnlyHyphens(r: string)
    requires forall i :: 0 <= i < |r| ==> r[i] == '-' || !IsStripped(r[i])
    ensures Strip(r) == DropHyphens(r)
    decreases |r|
  {
    if r != [] {
      StripOnlyHyphens(r[1..]);
      assert IsStripped('-');
    }
  }

  /** Stripping a whitespace-free string leaves it whitespace-free. */
  lemma {:induction false} NoSpaceStrip(r: string)
    requires forall i :: 0 <= i < |r| ==> !IsSpace(r[i])
    ensures Spaceless(Strip(r))
    decreases |r|
  {
    if r != [] {
      NoSpaceStrip(r[1..]);
      var rest := Strip(r[1..]);
      if !IsStripped(r[0]) {
        assert Strip(r) == [r[0]] + rest;
        assert ([r[0]] + rest)[1..] == rest;
      } else {
        assert Strip(r) == [] + rest;
        assert [] + rest == rest;
      }
    }
  }

  /** Hyphen removal shortens a string by its hyphen count. */
  lemma {:induction false} DropHyphensCount(r: string)
    ensures |DropHyphens(r)| == |r| - HyphenCount(r)
    decreases |r|
  {
    if r != [] {
      DropHyphensCount(r[1..]);
    }
  }
}

=== FILE: store.dfy ===
/** The blog's persistent state as one immutable value: articles by id,
    the category table, the article/category junction rows, the like and
    bookmark pairs, and the article of each comment row. */
module Store {
  import opened Outcomes
  import IntSets

  type UserId = int
  type ArticleId = int

  /** Publication status; new articles start as drafts. */
  datatype Status = Draft | Published

  /** One row of the blog table; the id is the key it is stored under. */
  datatype Article = Article(
    slug: string,
    title: string,
    description: string,
    content: string,
    image: string,
    status: Status,
    timeForStudy: int,
    authorId: UserId)

  /** One junction row linking an article to a category (an index into the
      category table). Rows are not deduplicated. */
  datatype Link = Link(articleId: ArticleId, categoryId: nat)

  /** The whole store. `comments` holds, once per comment row, the article
      the comment belongs to; the comments themselves belong to the comment
      service. `nextId` is the id the serial column hands out next. */
  datatype Store = Store(
    articles: map<ArticleId, Article>,
    categories: seq<string>,
    links: seq<Link>,
    likes: set<(UserId, ArticleId)>,
    bookmarks: set<(UserId, ArticleId)>,
    comments: multiset<ArticleId>,
    nextId: ArticleId)

  /** The store's own guarantee: every id in use was handed out before
      `nextId`, so `nextId` is fresh. */
  predicate Valid(st: Store) {
    forall id :: id in st.articles ==> id < st.nextId
  }

  /** Looks an article up by id, raising NotFound when there is none. */
  function CheckExist(st: Store, id: ArticleId): (r: Result<Article>)
    ensures r.Err? <==> id !in st.articles
    ensures r.Err? ==> r.error == NotFound
    ensures r.Ok? ==> r.value == st.articles[id]
  {
    if id in st.articles then Ok(st.articles[id]) else Err(NotFound)
  }

  /** The ids of the articles whose slug is `slug`. */
  function Holders(articles: map<ArticleId, Article>, slug: string): (r: set<ArticleId>)
    ensures forall id :: id in r <==> id in articles && articles[id].slug == slug
  {
    set id | id in articles && articles[id].slug == slug
  }

  /** The article a lookup by slug returns: none when no article holds the
      slug, otherwise the holder with the least id. */
  function SlugHolder(articles: map<ArticleId, Article>, slug: string): (h: Option<ArticleId>)
    ensures h.None? <==> forall id :: id in articles ==> articles[id].slug != slug
    ensures h.Some? ==> h.value in articles && articles[h.value].slug == slug
    ensures h.Some? ==> forall id :: id in articles && articles[id].slug == slug ==> h.value <= id
  {
    var holders := Holders(articles, slug);
    if holders == {} then
      assert forall id :: id in articles ==> articles[id].slug != slug by {
        forall id | id in articles
          ensures articles[id].slug != slug
        {
          assert articles[id].slug == slug ==> id in holders;
        }
      }
      None
    else
      var m := IntSets.Min(holders);
      assert forall id :: id in articles && articles[id].slug == slug ==> id in holders;
      Some(m)
  }
}

=== FILE: text.dfy ===
/** String helpers the service relies on: ASCII case folding, substring
    search, and `String.prototype.split` with a one-character separator. */
module Text {

  /** Lower-cases an ASCII capital; every other character is returned as is. */
  function LowerChar(c: char): (r: char)
    ensures 'A' <= c <= 'Z' ==> 'a' <= r <= 'z' && r as int == c as int + 32
    ensures !('A' <= c <= 'Z') ==> r == c
  {
    if 'A' <= c <= 'Z' then (c as int + 32) as char else c
  }

  /** Lower-cases every character of `s`, position by position. */
  function Lower(s: string): (r: string)
    ensures |r| == |s|
    ensures forall i :: 0 <= i < |s| ==> r[i] == LowerChar(s[i])
  {
    if s == [] then [] else [LowerChar(s[0])] + Lower(s[1..])
  }

  /** Lower-casing twice is lower-casing once (the service lowers the
      category filter, and the SQL lowers it again). */
  lemma LowerIdempotent(s: string)
    ensures Lower(Lower(s)) == Lower(s)
  {
  }

  /** Lower-casing distributes over concatenation. */
  lemma LowerConcat(a: string, b: string)
    ensures Lower(a + b) == Lower(a) + Lower(b)
  {
  }

  /** `w` occurs in `t` as a contiguous block. */
  predicate Contains(t: string, w: string) {
    exists k :: 0 <= k <= |t| && IsPrefix(w, t[k..])
  }

  /** `w` is a prefix of `t`. */
  predicate IsPrefix(w: string, t: string) {
    |w| <= |t| && t[..|w|] == w
  }

  /** `s.split(sep)` for a one-character separator: the pieces between
      separators, with empty pieces kept; the empty string splits to `[""]`. */
  function Split(s: string, sep: char): (r: seq<string>)
    ensures |r| >= 1
    ensures forall i :: 0 <= i < |r| ==> sep !in r[i]
  {
    if s == [] then [[]]
    else
      var rest := Split(s[1..], sep);
      if s[0] == sep then [[]] + rest
      else [[s[0]] + rest[0]] + rest[1..]
  }

  /** `parts.join(sep)`. */
  function Join(parts: seq<string>, sep: char): string
    requires |parts| >= 1
  {
    if |parts| == 1 then parts[0] else parts[0] + [sep] + Join(parts[1..], sep)
  }

  /** Joining the pieces of a split gives back the original string. */
  lemma {:induction false} JoinSplit(s: string, sep: char)
    ensures Join(Split(s, sep), sep) == s
  {
    if s != [] {
      JoinSplit(s[1..], sep);
      var rest := Split(s[1..], sep);
      if s[0] != sep && |rest| > 1 {
        assert Join(rest, sep) == rest[0] + [sep] + Join(rest[1..], sep);
        assert [s[0]] + rest[0] + [sep] + Join(rest[1..], sep) == [s[0]] + Join(rest, sep);
      }
    }
  }

  /** Splitting a join of separator-free pieces gives back the pieces. */
  lemma {:induction false} SplitJoin(parts: seq<string>, sep: char)
    requires |parts| >= 1
    requires forall i :: 0 <= i < |parts| ==> sep !in parts[i]
    ensures Split(Join(parts, sep), sep) == parts
  {
    if |parts| == 1 {
      SplitPiece(parts[0], [], sep);
      assert parts[0] + [] == parts[0];
      assert Split([], sep) == [[]];
    } else {
      SplitJoin(parts[1..], sep);
      var tail := Join(parts[1..], sep);
      assert Split([sep] + tail, sep) == [[]] + parts[1..] by {
        assert ([sep] + tail)[1..] == tail;
      }
      SplitPiece(parts[0], [sep] + tail, sep);
      assert Join(parts, sep) == parts[0] + ([sep] + tail);
      var sp := Split([sep] + tail, sep);
      assert sp[0] == [] && sp[1..] == parts[1..];
      assert parts[0] + sp[0] == parts[0];
      assert parts == [parts[0]] + parts[1..];
    }
  }

  /** Splitting `w + t`, for separator-free `w`, glues `w` onto the first
      piece of `t`. */
  lemma {:induction false} SplitPiece(w: string, t: string, sep: char)
    requires sep !in w
    ensures Split(w + t, sep) == [w + Split(t, sep)[0]] + Split(t, sep)[1..]
  {
    if w != [] {
      SplitPiece(w[1..], t, sep);
      assert (w + t)[1..] == w[1..] + t;
      var rest := Split(w[1..] + t, sep);
      assert rest == [w[1..] + Split(t, sep)[0]] + Split(t, sep)[1..];
      assert (w + t)[0] == w[0] && w[0] != sep;
      assert Split(w + t, sep) == [[w[0]] + rest[0]] + rest[1..];
      assert [w[0]] + (w[1..] + Split(t, sep)[0]) == w + Split(t, sep)[0];
    } else {
      var sp := Split(t, sep);
      assert w + t == t && w + sp[0] == sp[0];
      assert [sp[0]] + sp[1..] == sp;
    }
  }
}
